=== FILE: README.md ===
# PAC dashboard core in Dafny

This project models the decision and derivation logic of a PAC / influencer campaign dashboard. The original is a React front end whose data hooks talk to a hosted store. It covers:

- **Compliance review.** Submissions are approved or sent back for revision. The status and `compliance_checked` flag stay coupled. Compliance statistics are counted and rated, the admin's pending queue is at most 20 items, newest first, and the compliance report is filtered.
- **Review-queue and overview UI logic.** The gates on the approve and request-revision buttons, badge and icon classification, rate colours and the low-compliance alert.
- **Messaging.** Participant-scoped conversation listing, thread selection, and find-or-create of a conversation when a message is sent. Also the recipient-guarded mark-as-read, conversation search, counterpart and recipient choice, and the messaging modal's send flow.
- **Bookkeeping.** The payment summary, the campaign budget clamp, prepend-on-create, and list patches that touch only the matching id. Also integer analytics totals, per-platform grouping and the top-platform choice.
- **String helpers.** Humanising audit-trail action names and the backers' two-letter initials.

## How the model is built

- **The hosted store** is the `Store.Store` datatype: sequences of submission, conversation, message, payment, campaign, analytics and profile records, plus a PAC-admin ownership map (`AdministeredBy`).
- **Each hook operation** is a pure function from the store (and the hook's local state) to a new store, a new local state and a result. Whether the store accepts a request is a boolean parameter (`ok`, `convOk`, `msgOk`, ...). A rejected request leaves everything unchanged.
- **The signed-in user** is an `Option<Id>`.
- **Values the store generates** are parameters: new ids, timestamps and default column values. Timestamps are integers ordered like the ISO strings they stand for.
- **A store `order(...)`** is an insertion sort on the key (`Seqs.SortDesc`).
- **`.select().single()`** succeeds only when exactly one row has the id. Otherwise it returns an error and nothing changes.
- **Shared modules:**
  - `Wrappers`: `Option`, `Result`, `Outcome`;
  - `Seqs`: filter, count, sum, sort, take;
  - `Text`: JavaScript `trim` whitespace, ASCII case mapping, `includes`, `replace`, decimal rendering;
  - `Palette`: the colour families the components draw with.
- **The remaining modules** each follow one source file.

## Model

| member | source | states |
|---|---|---|
| Compliance.ComplianceRate | src/hooks/useCompliance.ts:85 | Zero when there are no submissions. Otherwise the percentage compliant/total rounded half-up: `2·r·total ≤ 200·compliant + total < 2·(r+1)·total`. Hence it lies in 0..100 and is 100 exactly when all are compliant. |
| Compliance.RateBound | src/hooks/useCompliance.ts:85 | The half-up quotient meets the rounding bracket, is at most 100, and equals 100 when everything is compliant. |
| Compliance.ComputeStats | src/hooks/useCompliance.ts:75-86 | Total is the row count. Compliant, pending and flagged count approved-and-checked, pending and revision_requested rows. Their sum never exceeds the total, and the rate obeys the half-up bracket with the zero-total guard. |
| Compliance.OwnedSubmissions | src/hooks/useCompliance.ts:57-66 | Holds exactly the submissions whose campaign's PAC the user administers, each as often as the store holds it and no other. |
| Compliance.ToItem | src/hooks/useCompliance.ts:129-140 | Priority is "high" iff the status is revision_requested, else "medium". Issues holds the review notes exactly when they are non-empty. Title is "content_type - platform" and type is "submission". campaign_name is the name of the first campaign with the submission's campaign id, or null when there is none. influencer_name is the display name of the influencer's profile, or null. platform is the submission's platform. |
| Compliance.Reviewable | src/hooks/useCompliance.ts:117-118 | Holds exactly the submissions the admin owns that are pending or revision_requested, each as often as the store holds it and no other. |
| Compliance.QueueRows | src/hooks/useCompliance.ts:117-120 | Exactly min(20, reviewable) rows, drawn from the reviewable ones without repeats (a sub-multiset of them), ordered newest first. |
| Compliance.PendingQueue | src/hooks/useCompliance.ts:117-140 | At most 20 items, item i being the projection of queue row i: title "content_type - platform", the first matching campaign's name and the influencer's display name (each null when absent), the platform, and the review notes as the only issue when they are truthy. Each is pending or revision_requested and owned by the admin, with high priority iff revision_requested. Items are ordered newest first. |
| Compliance.QueueShape | src/hooks/useCompliance.ts:129-140 | Projecting sorted reviewable rows keeps the order and the status set, and ties priority to the status. |
| Compliance.QueueOwned | src/hooks/useCompliance.ts:117 | Every projected item comes from a row the admin owns. |
| Compliance.QueueHoldsNewest | src/hooks/useCompliance.ts:119-120 | A reviewable submission left out of the queue is no newer than any queued item. |
| Compliance.FetchStats | src/hooks/useCompliance.ts:47-95 | With no user or a store error the stats are kept. Otherwise they become the counts and rate of exactly the submissions on campaigns the admin owns. Loading ends either way; queue and audit log are untouched. |
| Compliance.FetchPending | src/hooks/useCompliance.ts:98-146 | With no user or a store error the queue is kept. Otherwise it becomes the pending queue of the admin's owned submissions (at most 20, newest first). Stats, audit log and loading flag are untouched. |
| Compliance.QueueMatchesStats | src/hooks/useCompliance.ts:98-146 | The queue is as long as the stats' pending plus flagged count, capped at 20. |
| Compliance.LoadedQueueMatchesStats | src/hooks/useCompliance.ts:270-285 | After a successful signed-in load, stats exist and the queue length is min(20, pending + flagged) of those stats. |
| Compliance.LoadData | src/hooks/useCompliance.ts:270-285 | Signed out clears the stats and the queue. Signed in fills them from the owned submissions. |
| Compliance.UpdateById | src/hooks/useCompliance.ts:169-179 | Only rows with the id change. The rest of the store is untouched. |
| Compliance.CreateAuditEntry | src/hooks/useCompliance.ts:149-164 | Recording an audit entry leaves the audit log as it was. |
| Compliance.ApproveSubmission | src/hooks/useCompliance.ts:167-196 | On success the row with the id becomes approved with compliance_checked true and the given notes. Every other row and every other field is unchanged, and stats and queue are refreshed. On a store error nothing changes and the error is returned. |
| Compliance.RequestRevision | src/hooks/useCompliance.ts:199-228 | On success the row with the id becomes revision_requested with compliance_checked false and review_notes = notes. Every other row is unchanged, and stats and queue are refreshed. On error nothing changes. |
| Compliance.GenerateReport | src/hooks/useCompliance.ts:231-268 | Errors when signed out or on a store error. Otherwise it returns the owned rows matching the optional campaign within the inclusive date range, newest first: each matching row as often as the store holds it, and no other row. |
| Compliance.AuditLogStaysEmpty | src/hooks/useCompliance.ts:43 | Whatever sequence of loads, approvals and revision requests runs, the audit log stays empty. |
| Compliance.RunKeepsCoupling | src/hooks/useCompliance.ts:167-228 | Suppose every row starts coupled: compliance_checked only on approved rows, never on revision_requested ones. Then every sequence of loads, approvals and revision requests keeps every row coupled. |
| Submissions.FetchSubmissions | src/hooks/useSubmissions.ts:38-75 | Signed out gives an empty list and a store error keeps the list. Otherwise it is a permutation of the store's submissions, newest first. |
| Submissions.NormalizeNotes | src/hooks/useSubmissions.ts:88 | Empty or absent notes become null; other notes are kept. |
| Submissions.SetStatus | src/hooks/useSubmissions.ts:86-90 | compliance_checked is true exactly when the new status is "approved". Only status, notes and the flag change. |
| Submissions.UpdateSubmissionStatus | src/hooks/useSubmissions.ts:80-106 | Signed out or a store error leaves store and list unchanged. Success requires exactly one row with the id, and then patches only that id in both the store and the list, keeping length and order. |
| Messaging.Enrich | src/hooks/useMessages.ts:79-107 | The conversation row is kept. The campaign name is absent exactly when no campaign has the id, and otherwise is the name of the first campaign with it. Each side's profile is present exactly when the store holds one for that user, and is that profile. |
| Store.CampaignById | src/hooks/useMessages.ts:81-85 | Absent exactly when no campaign has the id; otherwise the first campaign with that id. |
| Messaging.OrderByLastMessage | src/hooks/useMessages.ts:69 | A permutation in which conversations with a last-message time come newest first. |
| Messaging.BlocksOrdered | src/hooks/useMessages.ts:69 | Putting the undated block before or after the sorted dated block keeps the dated ones in order. |
| Messaging.ListConversations | src/hooks/useMessages.ts:56-117 | Signed out gives an empty list and a store error keeps the list. Otherwise it lists the conversations where the user is on the PAC or influencer side, newest message first: each as often as the store holds it, and no other. |
| Messaging.ListingComplete | src/hooks/useMessages.ts:68 | Reordering the participant filter keeps exactly its members. |
| Messaging.ListingCounts | src/hooks/useMessages.ts:56-117 | The enriched listing holds each of the user's conversations as often as the store does, and no other conversation. |
| Messaging.FindConversation | src/hooks/useMessages.ts:130 | Finds the position of the first conversation with the id, or -1 exactly when there is none. |
| Messaging.FetchThread | src/hooks/useMessages.ts:124-175 | No selection or no user gives an empty thread. An unknown selection or a store error keeps the thread. Otherwise it holds the messages of the campaign between the two participants, oldest first: each as often as the store holds it, and no other. |
| Messaging.SendMessage | src/hooks/useMessages.ts:180-228 | Signed out fails and creates nothing. A conversation is inserted (sender on the PAC side) unless the lookup succeeded and exactly one conversation links the pair on this campaign. A failed conversation insert does not stop the message. The message carries sender, recipient, campaign, content and subject. |
| Messaging.FoundIsLinked | src/hooks/useMessages.ts:185-191 | A conversation the lookup finds links both users on the campaign. |
| Messaging.DuplicatesKeepGrowing | src/hooks/useMessages.ts:185-205 | Once two conversations link the pair, every send whose conversation insert succeeds adds one more. |
| Messaging.SecondSendCreatesNoConversation | src/hooks/useMessages.ts:185-205 | Starting with no conversation between the pair, a first send creates one, and a second send between them (both lookups succeeding) creates none. |
| Messaging.MarkAsRead | src/hooks/useMessages.ts:230-244 | Fails when signed out. On success it sets read_at only on the row with the id whose recipient is the user. Nothing else changes. |
| Messaging.MarkAsReadBySenderIsNoOp | src/hooks/useMessages.ts:237-238 | When the user is not the recipient of that message, the store is unchanged. |
| Messaging.MarkAsReadOverwrites | src/hooks/useMessages.ts:236 | Marking twice leaves the second time in read_at; an existing read_at is not protected. |
| MessagesPage.NameOr | src/pages/Messages.tsx:61-62 | A profile's display name when present and non-empty, else the fallback. |
| MessagesPage.CounterpartName | src/pages/Messages.tsx:60-62 | The influencer's name when the user is the PAC side, else the PAC's. A missing name becomes "Unknown". |
| MessagesPage.FilterConversations | src/pages/Messages.tsx:59-68 | Keeps exactly the conversations whose counterpart or campaign name contains the term, ignoring (ASCII) case. |
| MessagesPage.SearchPreservesOrder | src/pages/Messages.tsx:59 | The search result is a subsequence of the list. |
| MessagesPage.EmptySearchKeepsAll | src/pages/Messages.tsx:66-67 | An empty term keeps the whole list. |
| MessagesPage.SelectedConversation | src/pages/Messages.tsx:70 | The selected conversation is the first listed one with the selected id, or absent exactly when no listed id matches. |
| MessagesPage.RecipientFor | src/pages/Messages.tsx:75-77 | The recipient is a participant. It is the other participant whenever the user takes part and the two sides differ. |
| MessagesPage.HandleSendMessage | src/pages/Messages.tsx:72-89 | A send happens exactly when the draft is not blank, a conversation is selected and a user is signed in; otherwise nothing changes. The send goes to the other participant on the conversation's campaign, and the draft is cleared only when it succeeds. |
| MessagesPage.SendStoresDraft | src/pages/Messages.tsx:72-89 | When the send goes through, the store gains exactly one message, holding the draft and sent by the user, and the draft is cleared. |
| MessagesPage.EnrichedCounterpart | src/pages/Messages.tsx:60-62 | For the PAC side, the name shown for an enriched conversation is the influencer's stored display name, or "Unknown" when there is no profile or the name is empty. |
| MessagesPage.OtherUserInfo | src/pages/Messages.tsx:91-103 | "Unknown" with no user. Otherwise the counterpart's name and avatar, falling back to "Unknown Influencer" / "Unknown PAC Admin". |
| MessagesPage.SentMessagesAreOwn | src/pages/Messages.tsx:209 | A message the page just sent is drawn as the user's own. |
| MessagingModal.ExistingConversation | src/components/MessagingModal.tsx:35-38 | The first conversation on the campaign with the recipient on either side, or none exactly when no conversation matches. |
| MessagingModal.ModalSend | src/components/MessagingModal.tsx:40-57 | A blank message is never sent. On success message and subject are cleared and the existing conversation, if any, is selected. On failure both fields are kept. |
| MessagingModal.SuccessfulSendShowsHistory | src/components/MessagingModal.tsx:52-84 | After a successful send, the history panel shows whenever a matching conversation exists. |
| Payments.Summarise | src/hooks/usePayments.ts:70-90 | The balance is always 50000. reservedFunds is the total amount of the pending payments and completedPayments that of the completed ones, each summed in place over the list; pendingPayments counts the pending payments. An empty list gives zeros. |
| Payments.NothingPendingReservesNothing | src/hooks/usePayments.ts:73-81 | With no pending payment, reserved funds and the pending count are zero. |
| Payments.NonNegativeSum | src/hooks/usePayments.ts:74-75 | A sum of non-negative amounts is non-negative. |
| Payments.SummaryAppend | src/hooks/usePayments.ts:72-81 | Reserved, completed and the pending count are additive over a split of the list. |
| Payments.SummaryIgnoresOrder | src/hooks/usePayments.ts:63-90 | The summary depends only on the multiset of payments, not on the store's order. |
| Payments.FetchPayments | src/hooks/usePayments.ts:41-97 | Signed out gives no payments and a null summary, and a store error keeps both. Otherwise the payments are the store's, newest first, summarised. |
| Payments.UpdatePaymentStatus | src/hooks/usePayments.ts:102-124 | Errors when signed out. Succeeds exactly when one row has the id, and then patches the status of that id only, in the store and in the list. The summary is not recomputed. |
| Campaigns.FetchCampaigns | src/hooks/useCampaigns.ts:30-59 | Signed out gives an empty list and a store error keeps it. Otherwise it is the store's campaigns, newest first. |
| Campaigns.ClampBudget | src/hooks/useCampaigns.ts:72-75 | A budget above 1,000,000,000 becomes 1,000,000,000. Any other budget, including an absent one, is unchanged. |
| Campaigns.ClampIdempotent | src/hooks/useCampaigns.ts:74 | Clamping twice is clamping once. |
| Campaigns.InsertedRow | src/hooks/useCampaigns.ts:72-89 | The inserted row carries the given fields and the clamped budget (or the column default). |
| Campaigns.CreateCampaign | src/hooks/useCampaigns.ts:64-102 | Errors when signed out; a store error leaves store and list unchanged. Success appends the row to the store and prepends it to the list. |
| Campaigns.ApplyPatch | src/hooks/useCampaigns.ts:110 | A patch sets exactly the fields it carries; id and created_at are kept. |
| Campaigns.PatchIdempotent | src/hooks/useCampaigns.ts:110 | Applying a patch twice equals applying it once, and the empty patch changes nothing. |
| Campaigns.UpdateCampaign | src/hooks/useCampaigns.ts:104-132 | Errors when signed out. Succeeds exactly when one row has the id, and then replaces only the entries with that id, in the store and in the list, keeping length and order. |
| Campaigns.CreateThenUpdate | src/hooks/useCampaigns.ts:96-127 | Updating a campaign just created (with a fresh id) returns the patched row, at the head of the list. |
| Analytics.AddRow | src/hooks/useAnalytics.ts:62-69 | Adding a row to the grouping keeps platforms distinct, records the row's platform and loses none. |
| Analytics.GroupByPlatform | src/hooks/useAnalytics.ts:62-69 | One entry per distinct platform, and exactly the platforms of the rows. Entries come in the order in which their platforms first appear in the rows. |
| Analytics.AddRowEffect | src/hooks/useAnalytics.ts:62-69 | A row for a platform already grouped adds its impressions and engagement to that entry and changes no other; a row for a new platform appends one entry holding that row alone. |
| Analytics.GroupOrderStep | src/hooks/useAnalytics.ts:62-69 | Folding one more row keeps the entries in first-occurrence order. |
| Analytics.FirstRowAppend | src/hooks/useAnalytics.ts:62-69 | Appending a row keeps every present platform's first row, and makes it the first row of a new platform. |
| Analytics.GroupStep | src/hooks/useAnalytics.ts:63-65 | Folding one more row keeps "exactly the platforms of the rows". |
| Analytics.AddRowSums | src/hooks/useAnalytics.ts:66-67 | Folding a row adds its impressions and engagement to the grouped totals. |
| Analytics.GroupTotals | src/hooks/useAnalytics.ts:56-69 | The per-platform impression and engagement sums add up to the overall totals. |
| Analytics.GroupMatchesReference | src/hooks/useAnalytics.ts:62-69 | Every group entry holds the impressions and engagement of exactly the rows on its platform, matching an independent filter-and-sum definition. |
| Analytics.FirstMaxIndex | src/hooks/useAnalytics.ts:71-72 | The first entry with the largest engagement. |
| Analytics.TopPlatform | src/hooks/useAnalytics.ts:71-72 | Empty when there is no platform. Otherwise the platform of the first entry with maximum engagement, which is what a stable descending sort puts first. |
| Analytics.Summarise | src/hooks/useAnalytics.ts:55-81 | Totals are sums with null read as 0. The CTR takes the zero branch (`ZeroCtr`) exactly when impressions are not positive, else it is clicks over impressions. topPerformer is "Campaign Analytics". |
| Analytics.TopPlatformLeads | src/hooks/useAnalytics.ts:71-72 | No recorded platform has more engagement than the top platform. |
| Analytics.TopPlatformFirstOnTie | src/hooks/useAnalytics.ts:62-72 | Among the platforms of greatest engagement, the top platform is the one whose first row comes earliest. |
| Analytics.FetchAnalytics | src/hooks/useAnalytics.ts:35-83 | Signed out gives no rows and no summary, and a store error keeps both. Otherwise the rows are newest first. An empty result keeps the previous summary. A non-empty one gives totals equal to the sums over the store's rows. |
| AuditTrail.ActionIcon | src/components/AuditTrail.tsx:14-25 | Each of the three known actions gets its own icon and colour. Exactly the unknown ones get the gray document icon. |
| AuditTrail.ActionColor | src/components/AuditTrail.tsx:27-38 | Gray exactly for unknown actions. |
| AuditTrail.IconMatchesBadge | src/components/AuditTrail.tsx:14-38 | An entry's icon and badge share a colour family. |
| AuditTrail.CapitaliseWords | src/components/AuditTrail.tsx:49 | Same length. A word character at the start or after a non-word character is upper-cased, and every other character is unchanged. |
| AuditTrail.CapitaliseFrom | src/components/AuditTrail.tsx:49 | Upper-cases exactly the word characters with no word character before them. |
| AuditTrail.Humanise | src/components/AuditTrail.tsx:49 | Same length as the action. Each underscore becomes a space. A word character other than the underscore is upper-cased exactly when it starts the action or follows an underscore or a non-word character; every other character is kept. |
| AuditTrail.ActionLabel | src/components/AuditTrail.tsx:40-51 | The three known actions read "Approved", "Revision Requested" and "Pending Review". Any other action is humanised. |
| AuditTrail.HumaniseIdempotent | src/components/AuditTrail.tsx:49 | Humanising a humanised label changes nothing. |
| AuditTrail.HumaniseExample | src/components/AuditTrail.tsx:49 | "on_hold" is labelled "On Hold". |
| AuditTrail.PanelFor | src/components/AuditTrail.tsx:54-98 | The skeleton while loading, the empty state for an empty log, and entries only otherwise. |
| AuditTrail.TrailNeverListsEntries | src/components/AuditTrail.tsx:80-98 | Fed from the compliance hook, the panel never lists entries. |
| BackedBy.Split | src/components/BackedByStrip.tsx:17 | At least one piece, and no piece holds a space. |
| BackedBy.SplitJoin | src/components/BackedByStrip.tsx:17 | Joining the pieces with single spaces gives back the name. |
| BackedBy.FirstCharsAreWordStarts | src/components/BackedByStrip.tsx:17-19 | The first characters of the pieces are exactly the characters that begin a space-separated word. Empty pieces contribute nothing. |
| BackedBy.Initials | src/components/BackedByStrip.tsx:15-21 | At most two characters and no lower-case letter. They are the upper-cased first two word starts. |
| BackedBy.EmptyNameHasNoInitials | src/components/BackedByStrip.tsx:15-21 | The empty name has no initials. |
| BackedBy.FirstBackerInitials | src/components/BackedByStrip.tsx:9-21 | "Liberty Voices PAC" yields "LV". |
| BackedBy.TwoWords | src/components/BackedByStrip.tsx:15-21 | A name whose first word is followed by a second yields the upper-cased first letters of the two. |
| ReviewQueue.OpenReview | src/components/ComplianceQueue.tsx:157-160 | Opening a review selects the item and clears the notes. |
| Wrappers.NonEmpty | src/components/ComplianceQueue.tsx:29 | Empty text is forwarded as undefined and any other text as is. The review queue does this for approval notes and the messaging modal for the subject (MessagingModal.tsx line 44). |
| ReviewQueue.AfterAction | src/components/ComplianceQueue.tsx:31-57 | Success clears selection and notes; failure keeps both. Loading ends either way. |
| ReviewQueue.HandleApprove | src/components/ComplianceQueue.tsx:25-39 | Nothing happens with no selection. Otherwise it approves the selected id with the forwarded notes, and clears the form only when the hook succeeds. |
| ReviewQueue.HandleRequestRevision | src/components/ComplianceQueue.tsx:41-58 | The hook is called exactly when an item is selected and the notes are not blank. The notes are forwarded untrimmed, and the form is cleared only on success. |
| ReviewQueue.EnabledRevisionReachesHook | src/components/ComplianceQueue.tsx:42-48 | Whenever the Request Revision button is enabled and an item is selected, a click reaches the hook. |
| ReviewQueue.StatusIconFor | src/components/ComplianceQueue.tsx:60-72 | Check for compliant, clock for pending, alert for flagged or revision_requested, each exactly for those statuses. The gray cross exactly for every other status. |
| ReviewQueue.BadgeVariantFor | src/components/ComplianceQueue.tsx:75-83 | Default exactly for compliant, secondary exactly for pending, destructive exactly for flagged or revision_requested, and outline exactly for every other status. |
| ReviewQueue.DestructiveBadgeHasAlertIcon | src/components/ComplianceQueue.tsx:60-83 | A status has a destructive badge exactly when it has the red alert icon. |
| ReviewQueue.BadgeTextAsWritten | src/components/ComplianceQueue.tsx:84 | The badge text as written: the same length and all upper case. |
| ReviewQueue.BadgeTextKeepsSecondUnderscore | src/components/ComplianceQueue.tsx:84 | "a_b_c" is shown as "A B_C". |
| ReviewQueue.BadgeText | src/components/ComplianceQueue.tsx:84 | Every underscore becomes a space and every letter is upper case. |
| ReviewQueue.BadgeTextsAgree | src/components/ComplianceQueue.tsx:84 | For statuses with at most one underscore, such as every status the workflow produces, the two texts agree. |
| ReviewQueue.StatusBadge | src/components/ComplianceQueue.tsx:74-87 | The badge has the status's variant. Its text is as long as the status; the first underscore becomes a space and every other character is upper-cased, so a later underscore stays. |
| ReviewQueue.RevisionBadgeText | src/components/ComplianceQueue.tsx:84 | The revision_requested status reads "REVISION REQUESTED". |
| ReviewQueue.RevisionBadge | src/components/ComplianceQueue.tsx:79-84 | A revision_requested submission wears a destructive "REVISION REQUESTED" badge. |
| ReviewQueue.PriorityColor | src/components/ComplianceQueue.tsx:89-100 | high is red, medium yellow, low green, and any other value gray. |
| ReviewQueue.QueuedPriorityColours | src/components/ComplianceQueue.tsx:89-100 | A queued item is red exactly when a revision was requested, and yellow otherwise. |
| Overview.CardsNeedStats | src/components/ComplianceOverview.tsx:13 | The cards render only when loading is over and stats exist. |
| Overview.RateColour | src/components/ComplianceOverview.tsx:38 | Green from 90, yellow for 70..89, red below 70. |
| Overview.FlaggedColour | src/components/ComplianceOverview.tsx:52 | Red exactly when something is flagged, green otherwise. |
| Overview.AlertIffNotGreen | src/components/ComplianceOverview.tsx:38-119 | The compliance alert shows exactly when the rate card is not green. |
| Overview.RateValue | src/components/ComplianceOverview.tsx:35 | Decimal digits followed by "%", whose value is the rate, with no leading zero. |
| Overview.RateDescription | src/components/ComplianceOverview.tsx:36 | Reads "`compliant` of `total` compliant", with both numbers in decimal and neither with a leading zero. |
| Overview.EmptyDashboardAlerts | src/hooks/useCompliance.ts:85 | With no submissions the rate is 0, so the card is red and the alert shows. |
| Overview.AllCompliantIsGreen | src/components/ComplianceOverview.tsx:38-119 | When every owned submission is compliant, the card is green and no alert shows. |

## Left out

- Store plumbing. Query-builder calls, joins and the RPC-backed hooks are abstracted into the `Store` datatype and an ownership predicate.
- Row-level security. The payment, campaign, analytics and submission fetches return every row of the abstract store, because visibility rules live in the store, not in the hooks.
- Store success and failure are boolean parameters, and so are thrown exceptions: each is one "store rejected" branch.
- Profile and campaign-name enrichment queries. `Messaging.Enrich` takes the profiles from the abstract store, and a failed lookup is `None`.
- `Compliance.ApproveSubmission` with undefined notes: how the store serialises an undefined `review_notes` is not visible. The contract says nothing about the notes in that case.
- `Compliance.ApproveSubmission` and `Compliance.RequestRevision` show the state after the stats and queue refresh has finished. The hook starts both refreshes without awaiting them and returns at once, so for a while a caller sees the old stats and queue. The refresh's own failure is a separate parameter, not the action's error.
- `Messaging.OrderByLastMessage`: where the store puts conversations without `last_message_at` is a parameter. The contract orders only the dated ones.
- `Messaging.SendMessage` does not update `last_message_at`, as the hook does not either.
- Realtime subscriptions and the page reload they trigger, the timed auto mark-as-read in the message bubble, and concurrent duplicate-conversation races. These are side effects and concurrency.
- Floating point. The average CTR is kept as the pair (clicks, impressions) rather than a rounded percentage. `getPlatformEngagement` and the reach-over-time series are not modelled.
- Payment amounts are integers (cents); `Number(amount)` parsing is not modelled.
- Dates and locales: relative-time and locale date formatting and currency formatting. Timestamps are opaque ordered integers.
- Store.CampaignById: the enrichment's `.single()` would read several campaigns sharing an id as no campaign. Campaign ids are the table's primary key, so the model takes the first match.
- Compliance.ComplianceRate: rounds the exact rational 100·compliant/total half up. The dashboard rounds a double-precision quotient, which can land one lower on an exact half (23 of 40 gives 57 there, 58 here).
- Campaign columns `target_demographics`, `compliance_notes`, `start_date` and `end_date` are absent from `Store.Campaign` and `Campaigns.CampaignPatch`. No modelled operation reads or constrains them.
- `Text.ToUpper` / `Text.ToLower`: case mapping covers ASCII letters only, not Unicode.
- `BackedBy.Initials` works on characters, not UTF-16 code units.
- `Analytics.GroupByPlatform`: JavaScript lists integer-like object keys first, and the grouping also inherits prototype keys. Neither is modelled: the entries keep plain first-occurrence order.
- `ReviewQueue.BadgeVariantFor`: prototype keys of the variants lookup are not modelled.
- `BackedBy.FirstBackerInitials` is the only concrete backer lemma. The other three backers follow from `BackedBy.TwoWords` with the same argument.
- `Analytics.FetchAnalytics`: an empty result keeps the previous summary, because the hook only sets a summary for a non-empty result.
- `Campaigns.UpdateCampaign` applies the patch without the budget clamp, as the hook does.
- Toasts, loading spinners, button busy states, the audit entries' extra fields, and the presentational and marketing components.
- Campaign form parsing, the PAC insert hook and the influencer search RPC.

## Findings

| source | as written | input that shows it | evidently intended | confidence | as-written member | corrected member |
|---|---|---|---|---|---|---|
| src/components/ComplianceQueue.tsx:84 | The badge text calls `status.replace('_', ' ')`, which replaces only the first underscore before upper-casing. | A status with two underscores, e.g. "a_b_c", is shown as "A B_C". | Every underscore shown as a space, as the audit trail's global replace does. | low (every status the workflow produces has at most one underscore); not executed | ReviewQueue.BadgeTextAsWritten, ReviewQueue.BadgeTextKeepsSecondUnderscore | ReviewQueue.BadgeText, ReviewQueue.BadgeTextsAgree |

=== FILE: analytics.dfy ===
/** `useAnalytics`: the analytics rows, their integer totals, the per-platform grouping and
    the choice of the top platform. The click-through ratio is kept as a pair of integers. */
module Analytics {
  import opened Wrappers
  import opened Seqs
  import opened Store

  /** `value || 0` on a nullable counter. */
  function OrZero(v: Option<int>): int { v.GetOr(0) }

  function RowImpressions(r: AnalyticsRow): int { OrZero(r.impressions) }
  function RowClicks(r: AnalyticsRow): int { OrZero(r.clicks) }
  function RowEngagement(r: AnalyticsRow): int { OrZero(r.engagementCount) }

  /** The average click-through rate: zero when there are no impressions, otherwise the ratio
      of clicks to impressions (scaled to a percentage by the dashboard). */
  datatype Ctr = ZeroCtr | Ratio(clicks: int, impressions: int)

  /** One entry of the per-platform grouping. */
  datatype PlatformStat = PlatformStat(platform: string, impressions: int, engagement: int)

  function StatImpressions(g: PlatformStat): int { g.impressions }
  function StatEngagement(g: PlatformStat): int { g.engagement }

  datatype AnalyticsSummary = AnalyticsSummary(
    totalImpressions: int,
    totalClicks: int,
    totalEngagement: int,
    averageCtr: Ctr,
    topPlatform: string,
    topPerformer: string)

  /** The hook's state: the rows and the summary (null until computed, or when signed out). */
  datatype AnalyticsState = AnalyticsState(rows: seq<AnalyticsRow>, summary: Option<AnalyticsSummary>)

  /** No two entries of a grouping share a platform. */
  predicate DistinctPlatforms(gs: seq<PlatformStat>)
  {
    forall i, j :: 0 <= i < j < |gs| ==> gs[i].platform != gs[j].platform
  }

  /** Some entry of the grouping is for platform `p`. */
  predicate Grouped(gs: seq<PlatformStat>, p: string)
  {
    exists i :: 0 <= i < |gs| && gs[i].platform == p
  }

  /** Some row is for platform `p`. */
  predicate Recorded(rows: seq<AnalyticsRow>, p: string)
  {
    exists j :: 0 <= j < |rows| && rows[j].platform == p
  }

  /** The grouping has an entry for exactly the platforms that have rows. */
  predicate SamePlatforms(gs: seq<PlatformStat>, rows: seq<AnalyticsRow>)
  {
    (forall i {:trigger Recorded(rows, gs[i].platform)} :: 0 <= i < |gs| ==> Recorded(rows, gs[i].platform))
    && (forall j {:trigger Grouped(gs, rows[j].platform)} :: 0 <= j < |rows| ==> Grouped(gs, rows[j].platform))
  }

  /** Adds one row to the grouping: its platform's entry grows, or a new entry is appended. */
  function AddRow(gs: seq<PlatformStat>, r: AnalyticsRow): (out: seq<PlatformStat>)
    requires DistinctPlatforms(gs)
    ensures DistinctPlatforms(out)
    ensures |out| <= |gs| + 1
    ensures forall i :: 0 <= i < |out| ==> out[i].platform == r.platform || Grouped(gs, out[i].platform)
    ensures Grouped(out, r.platform)
    ensures forall p :: Grouped(gs, p) ==> Grouped(out, p)
  {
    var k := IndexWhere(gs, (g: PlatformStat) => g.platform == r.platform);
    if k == -1 then
      var out := gs + [PlatformStat(r.platform, RowImpressions(r), RowEngagement(r))];
      assert out[|gs|].platform == r.platform;
      assert forall j :: 0 <= j < |gs| ==> out[j] == gs[j];
      out
    else
      var out := gs[k := gs[k].(impressions := gs[k].impressions + RowImpressions(r),
                                engagement := gs[k].engagement + RowEngagement(r))];
      assert out[k].platform == r.platform;
      assert forall j :: 0 <= j < |gs| ==> out[j].platform == gs[j].platform;
      out
  }

  /** A row for a platform already grouped grows that platform's entry in place; a row for a
      new platform appends an entry holding that row alone. */
  lemma AddRowEffect(gs: seq<PlatformStat>, r: AnalyticsRow)
    requires DistinctPlatforms(gs)
    ensures Grouped(gs, r.platform) ==>
      |AddRow(gs, r)| == |gs| && forall i :: 0 <= i < |gs| ==> AddRow(gs, r)[i].platform == gs[i].platform
    ensures !Grouped(gs, r.platform) ==>
      AddRow(gs, r) == gs + [PlatformStat(r.platform, RowImpressions(r), RowEngagement(r))]
    ensures forall i :: 0 <= i < |gs| ==>
      AddRow(gs, r)[i] == if gs[i].platform == r.platform
                          then gs[i].(impressions := gs[i].impressions + RowImpressions(r),
                                      engagement := gs[i].engagement + RowEngagement(r))
                          else gs[i]
  {
  }

  /** The index of the first row for platform `p`, or -1 when there is none. */
  function FirstRow(rows: seq<AnalyticsRow>, p: string): int
  {
    IndexWhere(rows, (r: AnalyticsRow) => r.platform == p)
  }

  /** The entries come in the order in which their platforms first appear in the rows
      (the insertion order of the object the reduction builds). */
  predicate FirstOccurrenceOrder(gs: seq<PlatformStat>, rows: seq<AnalyticsRow>)
  {
    forall i, j :: 0 <= i < j < |gs| ==> FirstRow(rows, gs[i].platform) < FirstRow(rows, gs[j].platform)
  }

  /** The `platformStats` reduction: entries in order of each platform's first row. */
  function GroupByPlatform(rows: seq<AnalyticsRow>): (gs: seq<PlatformStat>)
    ensures DistinctPlatforms(gs)
    ensures |gs| <= |rows|
    ensures SamePlatforms(gs, rows)
    ensures FirstOccurrenceOrder(gs, rows)
    decreases |rows|
  {
    if |rows| == 0 then []
    else
      var init := rows[..|rows| - 1];
      var last := rows[|rows| - 1];
      var gi := GroupByPlatform(init);
      var gs := AddRow(gi, last);
      GroupStep(init, last, rows, gi, gs);
      GroupOrderStep(init, last, rows, gi, gs);
      gs
  }

  /** Appending a row keeps the first row of every platform already present, and makes it
      the first row of a platform that was not. */
  lemma FirstRowAppend(init: seq<AnalyticsRow>, last: AnalyticsRow, p: string)
    ensures Recorded(init, p) ==> FirstRow(init + [last], p) == FirstRow(init, p)
    ensures !Recorded(init, p) && last.platform == p ==> FirstRow(init + [last], p) == |init|
  {
    var rows := init + [last];
    var k := FirstRow(init, p);
    var k' := FirstRow(rows, p);
    if Recorded(init, p) {
      var j :| 0 <= j < |init| && init[j].platform == p;
      assert rows[j] == init[j];
      assert rows[k] == init[k];
    } else if last.platform == p {
      assert rows[|init|] == last;
    }
  }

  /** The step of the reduction keeps the entries in first-occurrence order. */
  lemma GroupOrderStep(init: seq<AnalyticsRow>, last: AnalyticsRow, rows: seq<AnalyticsRow>,
                       gi: seq<PlatformStat>, gs: seq<PlatformStat>)
    requires rows == init + [last]
    requires DistinctPlatforms(gi) && SamePlatforms(gi, init) && gs == AddRow(gi, last)
    requires FirstOccurrenceOrder(gi, init)
    ensures FirstOccurrenceOrder(gs, rows)
  {
    AddRowEffect(gi, last);
    forall i | 0 <= i < |gi|
      ensures FirstRow(rows, gi[i].platform) == FirstRow(init, gi[i].platform) < |init|
    {
      assert Recorded(init, gi[i].platform);
      FirstRowAppend(init, last, gi[i].platform);
    }
    if !Grouped(gi, last.platform) {
      assert !Recorded(init, last.platform);
      FirstRowAppend(init, last, last.platform);
      assert gs[|gi|].platform == last.platform;
    }
  }

  /** The step of the reduction keeps the grouping's platforms those of the rows. */
  lemma GroupStep(init: seq<AnalyticsRow>, last: AnalyticsRow, rows: seq<AnalyticsRow>,
                  gi: seq<PlatformStat>, gs: seq<PlatformStat>)
    requires rows == init + [last]
    requires DistinctPlatforms(gi) && SamePlatforms(gi, init) && gs == AddRow(gi, last)
    ensures SamePlatforms(gs, rows)
  {
    forall i | 0 <= i < |gs| ensures Recorded(rows, gs[i].platform) {
      if gs[i].platform == last.platform {
        assert rows[|init|] == last;
      } else {
        var m :| 0 <= m < |gi| && gi[m].platform == gs[i].platform;
        assert Recorded(init, gi[m].platform);
        var j :| 0 <= j < |init| && init[j].platform == gi[m].platform;
        assert rows[j] == init[j];
      }
    }
    forall j | 0 <= j < |rows| ensures Grouped(gs, rows[j].platform) {
      if j < |init| {
        assert rows[j] == init[j];
        assert Grouped(gi, init[j].platform);
      }
    }
  }

  /** The sum after replacing one element. */
  lemma SumUpdate(gs: seq<PlatformStat>, k: nat, g: PlatformStat, f: PlatformStat -> int)
    requires k < |gs|
    ensures Sum(gs[k := g], f) == Sum(gs, f) - f(gs[k]) + f(g)
  {
    var t := gs[k := g];
    SplitAt(gs, k);
    SplitAt(t, k);
    assert t[..k] == gs[..k] && t[k+1..] == gs[k+1..];
    SumAppend(gs[..k] + [gs[k]], gs[k+1..], f);
    SumAppend(gs[..k], [gs[k]], f);
    SumAppend(t[..k] + [g], t[k+1..], f);
    SumAppend(t[..k], [g], f);
  }

  /** Adding a row adds its counters to the grouping's sums. */
  lemma AddRowSums(gs: seq<PlatformStat>, r: AnalyticsRow)
    requires DistinctPlatforms(gs)
    ensures Sum(AddRow(gs, r), StatImpressions) == Sum(gs, StatImpressions) + RowImpressions(r)
    ensures Sum(AddRow(gs, r), StatEngagement) == Sum(gs, StatEngagement) + RowEngagement(r)
  {
    var k := IndexWhere(gs, (g: PlatformStat) => g.platform == r.platform);
    if k == -1 {
      var e := PlatformStat(r.platform, RowImpressions(r), RowEngagement(r));
      SumAppend(gs, [e], StatImpressions);
      SumAppend(gs, [e], StatEngagement);
    } else {
      var g := gs[k].(impressions := gs[k].impressions + RowImpressions(r),
                      engagement := gs[k].engagement + RowEngagement(r));
      SumUpdate(gs, k, g, StatImpressions);
      SumUpdate(gs, k, g, StatEngagement);
    }
  }

  /** The per-platform impression and engagement sums add up to the overall totals. */
  lemma {:induction false} GroupTotals(rows: seq<AnalyticsRow>)
    ensures Sum(GroupByPlatform(rows), StatImpressions) == Sum(rows, RowImpressions)
    ensures Sum(GroupByPlatform(rows), StatEngagement) == Sum(rows, RowEngagement)
    decreases |rows|
  {
    if |rows| > 0 {
      var init := rows[..|rows| - 1];
      var last := rows[|rows| - 1];
      var gi := GroupByPlatform(init);
      assert GroupByPlatform(rows) == AddRow(gi, last);
      GroupTotals(init);
      AddRowSums(gi, last);
      SumSnoc(rows, RowImpressions);
      SumSnoc(rows, RowEngagement);
    }
  }

  /** The rows of one platform. */
  function OnPlatform(p: string): AnalyticsRow -> bool
  {
    (r: AnalyticsRow) => r.platform == p
  }

  /** Reference definition: the impressions of one platform, summed over its rows. */
  function PlatformImpressions(rows: seq<AnalyticsRow>, p: string): int
  {
    Sum(Filter(rows, OnPlatform(p)), RowImpressions)
  }

  /** Reference definition: the engagement of one platform, summed over its rows. */
  function PlatformEngagement(rows: seq<AnalyticsRow>, p: string): int
  {
    Sum(Filter(rows, OnPlatform(p)), RowEngagement)
  }

  /** The last row adds its counters to its own platform only. */
  lemma PlatformSnoc(rows: seq<AnalyticsRow>, p: string)
    requires |rows| > 0
    ensures var last := rows[|rows| - 1];
      PlatformImpressions(rows, p)
        == PlatformImpressions(rows[..|rows| - 1], p) + (if last.platform == p then RowImpressions(last) else 0)
    ensures var last := rows[|rows| - 1];
      PlatformEngagement(rows, p)
        == PlatformEngagement(rows[..|rows| - 1], p) + (if last.platform == p then RowEngagement(last) else 0)
  {
    var init := rows[..|rows| - 1];
    var last := rows[|rows| - 1];
    assert rows == init + [last];
    FilterAppend(init, [last], OnPlatform(p));
    SumAppend(Filter(init, OnPlatform(p)), Filter([last], OnPlatform(p)), RowImpressions);
    SumAppend(Filter(init, OnPlatform(p)), Filter([last], OnPlatform(p)), RowEngagement);
    assert [last][1..] == [];
  }

  /** A platform with no rows has no impressions and no engagement. */
  lemma AbsentPlatform(rows: seq<AnalyticsRow>, p: string)
    requires forall j :: 0 <= j < |rows| ==> rows[j].platform != p
    ensures PlatformImpressions(rows, p) == 0 && PlatformEngagement(rows, p) == 0
  {
  }

  /** An entry holds exactly its platform's sums over the rows. */
  predicate MatchesRows(g: PlatformStat, rows: seq<AnalyticsRow>)
  {
    g.impressions == PlatformImpressions(rows, g.platform)
    && g.engagement == PlatformEngagement(rows, g.platform)
  }

  /** One step of the reduction keeps every entry equal to its platform's sums. */
  lemma MatchStep(rows: seq<AnalyticsRow>, gi: seq<PlatformStat>)
    requires |rows| > 0
    requires DistinctPlatforms(gi) && SamePlatforms(gi, rows[..|rows| - 1])
    requires forall i :: 0 <= i < |gi| ==> MatchesRows(gi[i], rows[..|rows| - 1])
    ensures var gs := AddRow(gi, rows[|rows| - 1]);
      forall i :: 0 <= i < |gs| ==> MatchesRows(gs[i], rows)
  {
    var last := rows[|rows| - 1];
    var k := IndexWhere(gi, (g: PlatformStat) => g.platform == last.platform);
    if k == -1 {
      forall j | 0 <= j < |rows| - 1 ensures Grouped(gi, rows[j].platform) {
        assert rows[j] == rows[..|rows| - 1][j];
      }
      MatchStepNew(rows, gi);
    } else {
      MatchStepGrow(rows, gi, k);
    }
  }

  /** The step for a row whose platform is new: the appended entry holds that row alone. */
  lemma MatchStepNew(rows: seq<AnalyticsRow>, gi: seq<PlatformStat>)
    requires |rows| > 0
    requires DistinctPlatforms(gi)
    requires forall j :: 0 <= j < |rows| - 1 ==> Grouped(gi, rows[j].platform)
    requires forall i :: 0 <= i < |gi| ==> MatchesRows(gi[i], rows[..|rows| - 1])
    requires forall i :: 0 <= i < |gi| ==> gi[i].platform != rows[|rows| - 1].platform
    ensures var gs := AddRow(gi, rows[|rows| - 1]);
      forall i :: 0 <= i < |gs| ==> MatchesRows(gs[i], rows)
  {
    var last := rows[|rows| - 1];
    var e := PlatformStat(last.platform, RowImpressions(last), RowEngagement(last));
    var gs := AddRow(gi, last);
    assert !Grouped(gi, last.platform);
    AddRowEffect(gi, last);
    assert gs == gi + [e];
    forall i | 0 <= i < |gi| ensures MatchesRows(gs[i], rows) {
      assert gs[i] == gi[i];
      PlatformSnoc(rows, gi[i].platform);
    }
    forall j | 0 <= j < |rows| - 1 ensures rows[j].platform != last.platform {
      assert Grouped(gi, rows[j].platform);
    }
    NewPlatformMatches(rows);
    assert gs[|gi|] == e;
  }

  /** A row whose platform no earlier row has: its platform's sums are its own counters. */
  lemma NewPlatformMatches(rows: seq<AnalyticsRow>)
    requires |rows| > 0
    requires forall j :: 0 <= j < |rows| - 1 ==> rows[j].platform != rows[|rows| - 1].platform
    ensures var last := rows[|rows| - 1];
      MatchesRows(PlatformStat(last.platform, RowImpressions(last), RowEngagement(last)), rows)
  {
    var init := rows[..|rows| - 1];
    var last := rows[|rows| - 1];
    assert forall j :: 0 <= j < |init| ==> init[j] == rows[j];
    AbsentPlatform(init, last.platform);
    PlatformSnoc(rows, last.platform);
  }

  /** The step for a row whose platform has entry k: that entry grows by the row's counters. */
  lemma MatchStepGrow(rows: seq<AnalyticsRow>, gi: seq<PlatformStat>, k: nat)
    requires |rows| > 0 && k < |gi|
    requires DistinctPlatforms(gi)
    requires forall i :: 0 <= i < |gi| ==> MatchesRows(gi[i], rows[..|rows| - 1])
    requires gi[k].platform == rows[|rows| - 1].platform
    requires forall i :: 0 <= i < k ==> gi[i].platform != rows[|rows| - 1].platform
    ensures var gs := AddRow(gi, rows[|rows| - 1]);
      forall i :: 0 <= i < |gs| ==> MatchesRows(gs[i], rows)
  {
    var last := rows[|rows| - 1];
    var gs := AddRow(gi, last);
    AddRowEffect(gi, last);
    assert |gs| == |gi|;
    forall i | 0 <= i < |gs| ensures MatchesRows(gs[i], rows) {
      PlatformSnoc(rows, gi[i].platform);
      assert MatchesRows(gi[i], rows[..|rows| - 1]);
    }
  }

  /** Every entry of the grouping holds exactly its platform's sums. */
  lemma {:induction false} GroupMatchesReference(rows: seq<AnalyticsRow>)
    ensures forall i :: 0 <= i < |GroupByPlatform(rows)| ==> MatchesRows(GroupByPlatform(rows)[i], rows)
    decreases |rows|
  {
    if |rows| > 0 {
      var init := rows[..|rows| - 1];
      GroupMatchesReference(init);
      assert GroupByPlatform(rows) == AddRow(GroupByPlatform(init), rows[|rows| - 1]);
      MatchStep(rows, GroupByPlatform(init));
    }
  }

  /** Position k holds the first entry of greatest engagement: what a stable descending
      sort by engagement puts first. */
  predicate FirstMaximum(gs: seq<PlatformStat>, k: int)
  {
    0 <= k < |gs|
    && (forall i :: 0 <= i < |gs| ==> gs[i].engagement <= gs[k].engagement)
    && (forall i :: 0 <= i < k ==> gs[i].engagement < gs[k].engagement)
  }

  /** The index of the first entry of greatest engagement. */
  function FirstMaxIndex(gs: seq<PlatformStat>): (k: nat)
    requires |gs| > 0
    ensures FirstMaximum(gs, k)
    decreases |gs|
  {
    if |gs| == 1 then 0
    else
      var init := gs[..|gs| - 1];
      var k := FirstMaxIndex(init);
      assert forall i :: 0 <= i < |init| ==> gs[i] == init[i];
      if gs[|gs| - 1].engagement > gs[k].engagement then |gs| - 1 else k
  }

  /** `topPlatform`: the platform of the first entry of greatest engagement, or "" when there
      are no entries. */
  function TopPlatform(gs: seq<PlatformStat>): (r: string)
    ensures |gs| == 0 ==> r == ""
    ensures |gs| > 0 ==> exists k :: FirstMaximum(gs, k) && r == gs[k].platform
  {
    if |gs| == 0 then "" else gs[FirstMaxIndex(gs)].platform
  }

  /** The summary of the fetched rows: null counters count as zero, the click-through rate is
      guarded against zero impressions, and the top platform is the first platform of
      greatest engagement. */
  function Summarise(rows: seq<AnalyticsRow>): (s: AnalyticsSummary)
    ensures s.totalImpressions == Sum(rows, RowImpressions)
    ensures s.totalClicks == Sum(rows, RowClicks)
    ensures s.totalEngagement == Sum(rows, RowEngagement)
    ensures s.averageCtr.ZeroCtr? <==> s.totalImpressions <= 0
    ensures s.averageCtr.Ratio? ==> s.averageCtr == Ratio(s.totalClicks, s.totalImpressions)
    ensures s.topPerformer == "Campaign Analytics"
    ensures |rows| == 0 ==> s.topPlatform == ""
    ensures |rows| > 0 ==> exists k :: FirstMaximum(GroupByPlatform(rows), k) && s.topPlatform == GroupByPlatform(rows)[k].platform
  {
    var impressions := Sum(rows, RowImpressions);
    var clicks := Sum(rows, RowClicks);
    var gs := GroupByPlatform(rows);
    assert |rows| > 0 ==> Grouped(gs, rows[0].platform);
    AnalyticsSummary(impressions, clicks, Sum(rows, RowEngagement),
                     if impressions > 0 then Ratio(clicks, impressions) else ZeroCtr,
                     TopPlatform(gs), "Campaign Analytics")
  }

  /** The top platform has at least the engagement of every platform that has rows. */
  lemma TopPlatformLeads(rows: seq<AnalyticsRow>, p: string)
    requires Recorded(rows, p)
    ensures PlatformEngagement(rows, p) <= PlatformEngagement(rows, Summarise(rows).topPlatform)
  {
    var gs := GroupByPlatform(rows);
    GroupMatchesReference(rows);
    var j :| 0 <= j < |rows| && rows[j].platform == p;
    assert Grouped(gs, p);
    var i :| 0 <= i < |gs| && gs[i].platform == p;
    var k := FirstMaxIndex(gs);
    assert Summarise(rows).topPlatform == TopPlatform(gs) == gs[k].platform;
    assert MatchesRows(gs[i], rows) && MatchesRows(gs[k], rows);
    assert gs[i].engagement <= gs[k].engagement;
  }

  /** Ties for the lead go to the platform whose first row comes first: among the entries of
      greatest engagement, the top platform appears earliest in the rows. */
  lemma TopPlatformFirstOnTie(rows: seq<AnalyticsRow>, i: int)
    requires 0 <= i < |GroupByPlatform(rows)|
    requires forall j :: 0 <= j < |GroupByPlatform(rows)| ==>
      GroupByPlatform(rows)[j].engagement <= GroupByPlatform(rows)[i].engagement
    ensures FirstRow(rows, Summarise(rows).topPlatform) <= FirstRow(rows, GroupByPlatform(rows)[i].platform)
  {
    var gs := GroupByPlatform(rows);
    var k := FirstMaxIndex(gs);
    assert Summarise(rows).topPlatform == TopPlatform(gs) == gs[k].platform;
    assert i >= k;
  }

  /** `fetchAnalytics`: signed out clears rows and summary; a store error keeps the state;
      otherwise the rows newest first, with a new summary only when there is at least one row
      (an empty result keeps the previous summary). */
  function FetchAnalytics(prev: AnalyticsState, st: Store, user: Option<Id>, ok: bool): (r: AnalyticsState)
    ensures user.None? ==> r == AnalyticsState([], None)
    ensures user.Some? && !ok ==> r == prev
    ensures user.Some? && ok ==> multiset(r.rows) == multiset(st.analytics)
    ensures user.Some? && ok ==> forall i, j :: 0 <= i < j < |r.rows| ==> r.rows[i].dateRecorded >= r.rows[j].dateRecorded
    ensures user.Some? && ok && |st.analytics| == 0 ==> r.summary == prev.summary
    ensures user.Some? && ok && |st.analytics| > 0 ==> r.summary == Some(Summarise(r.rows))
    ensures user.Some? && ok && |st.analytics| > 0 ==>
      r.summary.value.totalImpressions == Sum(st.analytics, RowImpressions)
      && r.summary.value.totalClicks == Sum(st.analytics, RowClicks)
      && r.summary.value.totalEngagement == Sum(st.analytics, RowEngagement)
  {
    if user.None? then AnalyticsState([], None)
    else if !ok then prev
    else
      var key := (a: AnalyticsRow) => a.dateRecorded;
      var rows := SortDesc(st.analytics, key);
      assert forall i, j :: 0 <= i < j < |rows| ==> key(rows[i]) >= key(rows[j]);
      assert |rows| == |multiset(rows)| == |multiset(st.analytics)| == |st.analytics|;
      SumPermutation(rows, st.analytics, RowImpressions);
      SumPermutation(rows, st.analytics, RowClicks);
      SumPermutation(rows, st.analytics, RowEngagement);
      AnalyticsState(rows, if |rows| > 0 then Some(Summarise(rows)) else prev.summary)
  }
}

=== FILE: audit_trail.dfy ===
/** The audit trail panel: how an action is labelled, iconed and coloured, and which of its
    three faces the panel shows. */
module AuditTrail {
  import opened Wrappers
  import opened Text
  import opened Store
  import opened Compliance
  import opened Palette

  datatype Icon = CheckCircle | AlertCircle | ClockIcon | FileText

  /** The three actions the panel knows by name. */
  const SubmissionApproved: string := "submission_approved"
  const RevisionRequestedAction: string := "revision_requested"
  const SubmissionPending: string := "submission_pending"

  /** `getActionIcon`: the icon and its colour. */
  function ActionIcon(action: string): (r: (Icon, Colour))
    ensures action == SubmissionApproved <==> r == (CheckCircle, Green)
    ensures action == RevisionRequestedAction <==> r == (AlertCircle, Yellow)
    ensures action == SubmissionPending <==> r == (ClockIcon, Blue)
    ensures r.0 == FileText <==> r.1 == Gray
    ensures r == (FileText, Gray) <==> action != SubmissionApproved && action != RevisionRequestedAction && action != SubmissionPending
  {
    if action == SubmissionApproved then (CheckCircle, Green)
    else if action == RevisionRequestedAction then (AlertCircle, Yellow)
    else if action == SubmissionPending then (ClockIcon, Blue)
    else (FileText, Gray)
  }

  /** `getActionColor`: the badge's colour family. */
  function ActionColor(action: string): (r: Colour)
    ensures r == Gray <==> action != SubmissionApproved && action != RevisionRequestedAction && action != SubmissionPending
  {
    if action == SubmissionApproved then Green
    else if action == RevisionRequestedAction then Yellow
    else if action == SubmissionPending then Blue
    else Gray
  }

  /** An entry's icon and badge are always drawn in the same colour family. */
  lemma IconMatchesBadge(action: string)
    ensures ActionIcon(action).1 == ActionColor(action)
  {
  }

  /** A `\w` character: ASCII letter, digit or underscore. */
  predicate IsWordChar(c: char)
  {
    'a' <= c <= 'z' || 'A' <= c <= 'Z' || '0' <= c <= '9' || c == '_'
  }

  /** The character before position i of t is a word character; `prevWord` stands for the
      character before t. */
  predicate WordBefore(t: string, i: int, prevWord: bool)
    requires 0 <= i <= |t|
  {
    if i == 0 then prevWord else IsWordChar(t[i - 1])
  }

  /** Position i of t starts a word: a word character not preceded by one (`\b\w`). */
  predicate WordStartAt(t: string, i: int)
  {
    0 <= i < |t| && IsWordChar(t[i]) && !WordBefore(t, i, false)
  }

  /** Dropping the first character shifts positions by one and makes it the one before. */
  lemma WordBeforeShift(t: string, prevWord: bool)
    requires |t| > 0
    ensures forall i :: 1 <= i <= |t| ==> WordBefore(t, i, prevWord) == WordBefore(t[1..], i - 1, IsWordChar(t[0]))
  {
    forall i | 1 <= i <= |t| ensures WordBefore(t, i, prevWord) == WordBefore(t[1..], i - 1, IsWordChar(t[0])) {
      if i >= 2 {
        assert t[1..][i - 2] == t[i - 1];
      }
    }
  }

  /** The left-to-right scan of `.replace(/\b\w/g, upper)`. */
  function CapitaliseFrom(t: string, prevWord: bool): (r: string)
    ensures |r| == |t|
    ensures forall i :: 0 <= i < |t| ==>
      r[i] == (if IsWordChar(t[i]) && !WordBefore(t, i, prevWord) then Upper(t[i]) else t[i])
    decreases |t|
  {
    if |t| == 0 then ""
    else
      var rest := CapitaliseFrom(t[1..], IsWordChar(t[0]));
      var r := [if IsWordChar(t[0]) && !prevWord then Upper(t[0]) else t[0]] + rest;
      WordBeforeShift(t, prevWord);
      assert forall i :: 1 <= i < |t| ==> r[i] == rest[i - 1] && t[1..][i - 1] == t[i];
      r
  }

  /** Upper-cases the first character of every word. */
  function CapitaliseWords(t: string): (r: string)
    ensures |r| == |t|
    ensures forall i :: 0 <= i < |t| ==> r[i] == (if WordStartAt(t, i) then Upper(t[i]) else t[i])
  {
    CapitaliseFrom(t, false)
  }

  /** Position i of an action name starts a word of its label: a word character other than
      the underscore, at the start or after an underscore or a non-word character. */
  predicate LabelWordStart(action: string, i: int)
  {
    0 <= i < |action| && IsWordChar(action[i]) && action[i] != '_'
    && (i == 0 || !IsWordChar(action[i - 1]) || action[i - 1] == '_')
  }

  /** The fallback label: underscores become spaces and each word starts upper-case. */
  function Humanise(action: string): (r: string)
    ensures |r| == |action|
    ensures forall i :: 0 <= i < |r| ==> r[i] != '_'
    ensures forall i :: 0 <= i < |r| ==> (action[i] == '_' <==> r[i] == ' ') || action[i] == ' '
    ensures forall i :: 0 <= i < |r| ==> Lower(r[i]) == Lower(if action[i] == '_' then ' ' else action[i])
    ensures forall i :: 0 <= i < |r| ==>
      r[i] == (if action[i] == '_' then ' ' else if LabelWordStart(action, i) then Upper(action[i]) else action[i])
  {
    var t := ReplaceAll(action, '_', ' ');
    SpacedWordStarts(action, t);
    CapitaliseWords(t)
  }

  /** After underscores become spaces, the word starts are exactly the label's word starts. */
  lemma SpacedWordStarts(action: string, t: string)
    requires t == ReplaceAll(action, '_', ' ')
    ensures forall i :: 0 <= i < |t| ==> WordStartAt(t, i) == LabelWordStart(action, i)
  {
    forall i | 0 <= i < |t| ensures WordStartAt(t, i) == LabelWordStart(action, i) {
      if i > 0 {
        assert t[i - 1] == (if action[i - 1] == '_' then ' ' else action[i - 1]);
      }
    }
  }

  /** `getActionLabel`: the three known actions have fixed labels; any other is humanised. */
  function ActionLabel(action: string): (r: string)
    ensures action == SubmissionApproved ==> r == "Approved"
    ensures action == RevisionRequestedAction ==> r == "Revision Requested"
    ensures action == SubmissionPending ==> r == "Pending Review"
    ensures ActionColor(action) == Gray ==> r == Humanise(action)
  {
    if action == SubmissionApproved then "Approved"
    else if action == RevisionRequestedAction then "Revision Requested"
    else if action == SubmissionPending then "Pending Review"
    else Humanise(action)
  }

  /** Humanising a label that is already humanised changes nothing. */
  lemma HumaniseIdempotent(action: string)
    ensures Humanise(Humanise(action)) == Humanise(action)
  {
    var t := ReplaceAll(action, '_', ' ');
    var h := Humanise(action);
    var t2 := ReplaceAll(h, '_', ' ');
    assert t2 == h;
    forall i | 0 <= i < |h| ensures IsWordChar(h[i]) == IsWordChar(t[i]) { }
    forall i | 0 <= i < |h| ensures WordStartAt(h, i) == WordStartAt(t, i) { }
  }

  /** An unknown action reads as words: "on_hold" becomes "On Hold". */
  lemma HumaniseExample()
    ensures ActionLabel("on_hold") == "On Hold"
  {
    var t := ReplaceAll("on_hold", '_', ' ');
    assert t == "on hold";
    var h := CapitaliseWords(t);
    assert h[0] == 'O' && h[1] == 'n' && h[2] == ' ';
    assert h[3] == 'H' && h[4] == 'o' && h[5] == 'l' && h[6] == 'd';
    assert h == "On Hold";
  }

  /** What the panel shows. */
  datatype AuditPanel = Skeleton | EmptyState | Entries(count: nat)

  /** Loading shows placeholders, an empty log the empty state, otherwise the entries. */
  function PanelFor(log: seq<AuditLogEntry>, loading: bool): (r: AuditPanel)
    ensures loading ==> r == Skeleton
    ensures !loading && |log| == 0 ==> r == EmptyState
    ensures r.Entries? <==> !loading && |log| > 0
    ensures r.Entries? ==> r.count == |log|
  {
    if loading then Skeleton
    else if |log| == 0 then EmptyState
    else Entries(|log|)
  }

  /** Since the compliance hook never records an entry, the trail fed from it never lists any. */
  lemma TrailNeverListsEntries(st: Store, user: Option<Id>, actions: seq<ComplianceAction>, loading: bool)
    ensures !PanelFor(Run(st, InitialView, user, actions).1.auditLog, loading).Entries?
  {
    AuditLogStaysEmpty(st, InitialView, user, actions);
  }
}

=== FILE: backed_by.dfy ===
/** The "Backed by" strip: the fixed backer list and the two-letter initials drawn for each. */
module BackedBy {
  import opened Seqs
  import opened Text

  /** The organisations the strip shows, in order. */
  const Backers: seq<string> := ["Liberty Voices PAC", "Civic Action Network", "Voters First Coalition", "United Grassroots"]

  /** `s.split(" ")`: the pieces between single spaces; empty pieces are kept. */
  function Split(s: string): (parts: seq<string>)
    ensures |parts| >= 1
    ensures forall i, j :: 0 <= i < |parts| && 0 <= j < |parts[i]| ==> parts[i][j] != ' '
    decreases |s|
  {
    if |s| == 0 then [""]
    else
      var rest := Split(s[1..]);
      if s[0] == ' ' then [""] + rest
      else [[s[0]] + rest[0]] + rest[1..]
  }

  /** `parts.join(" ")`. */
  function Join(parts: seq<string>): string
    requires |parts| >= 1
    decreases |parts|
  {
    if |parts| == 1 then parts[0] else parts[0] + " " + Join(parts[1..])
  }

  /** Splitting and joining again gives back the name. */
  lemma {:induction false} SplitJoin(s: string)
    ensures Join(Split(s)) == s
    decreases |s|
  {
    if |s| > 0 {
      var rest := Split(s[1..]);
      SplitJoin(s[1..]);
      if s[0] == ' ' {
        assert Split(s) == [""] + rest;
        assert ([""] + rest)[1..] == rest;
        assert s == "" + " " + s[1..];
      } else {
        var parts := Split(s);
        assert parts == [[s[0]] + rest[0]] + rest[1..];
        if |rest| == 1 {
          assert s == [s[0]] + rest[0];
        } else {
          assert parts[1..] == rest[1..];
          assert s == [s[0]] + (rest[0] + " " + Join(rest[1..]));
        }
      }
    }
  }

  /** `.map(n => n[0]).join("")`: the first character of each piece; an empty piece gives
      `undefined`, which the join writes as nothing. */
  function FirstChars(parts: seq<string>): string
    decreases |parts|
  {
    if |parts| == 0 then ""
    else (if |parts[0]| > 0 then [parts[0][0]] else "") + FirstChars(parts[1..])
  }

  /** Reference definition: the characters that begin a word, scanning left to right;
      `atStart` says whether the previous character was a space (or there was none). */
  function WordStarts(s: string, atStart: bool): (r: string)
    ensures |r| <= |s|
    ensures forall i :: 0 <= i < |r| ==> r[i] in s && r[i] != ' '
    decreases |s|
  {
    if |s| == 0 then ""
    else (if atStart && s[0] != ' ' then [s[0]] else "") + WordStarts(s[1..], s[0] == ' ')
  }

  /** The first characters of the pieces are the characters that begin a word. */
  lemma {:induction false} FirstCharsAreWordStarts(s: string)
    ensures FirstChars(Split(s)) == WordStarts(s, true)
    ensures FirstChars(Split(s)[1..]) == WordStarts(s, false)
    decreases |s|
  {
    if |s| > 0 {
      var rest := Split(s[1..]);
      FirstCharsAreWordStarts(s[1..]);
      if s[0] == ' ' {
        assert Split(s) == [""] + rest;
        assert ([""] + rest)[1..] == rest;
      } else {
        var parts := Split(s);
        assert parts == [[s[0]] + rest[0]] + rest[1..];
        assert parts[1..] == rest[1..];
        assert parts[0][0] == s[0];
      }
    }
  }

  /** `initials(name)`: the first character of the first two words, upper-cased. */
  function Initials(name: string): (r: string)
    ensures |r| <= 2
    ensures forall i :: 0 <= i < |r| ==> !IsLowerLetter(r[i])
    ensures r == ToUpper(Take(WordStarts(name, true), 2))
  {
    FirstCharsAreWordStarts(name);
    ToUpper(Take(FirstChars(Split(name)), 2))
  }

  /** An empty name has no initials. */
  lemma EmptyNameHasNoInitials()
    ensures Initials("") == ""
  {
  }

  /** The first backer, "Liberty Voices PAC", shows LV. */
  lemma FirstBackerInitials()
    ensures Initials(Backers[0]) == "LV"
  {
    assert Backers[0] == "Liberty Voices PAC";
    BackerInitialsOf("Liberty", "Voices PAC", "LV");
    assert "Liberty Voices PAC" == "Liberty" + " " + "Voices PAC";
  }

  /** One backer's initials, from its first word and the rest of its name. */
  lemma BackerInitialsOf(first: string, rest: string, expected: string)
    requires |first| > 0 && |rest| > 0 && |expected| == 2
    requires forall i :: 0 <= i < |first| ==> first[i] != ' '
    requires rest[0] != ' '
    requires Upper(first[0]) == expected[0] && Upper(rest[0]) == expected[1]
    ensures Initials(first + " " + rest) == expected
  {
    TwoWords(first, rest);
  }

  /** The initials of "first rest" are those of the two words' first letters, when the first
      word has no spaces and the rest starts with a letter. */
  lemma TwoWords(first: string, rest: string)
    requires |first| > 0 && |rest| > 0
    requires forall i :: 0 <= i < |first| ==> first[i] != ' '
    requires rest[0] != ' '
    ensures Initials(first + " " + rest) == ToUpper([first[0], rest[0]])
  {
    var s := first + " " + rest;
    WordStartsSkip(first[1..], " " + rest);
    assert s == [first[0]] + (first[1..] + " " + rest);
    assert (first[1..] + " " + rest) == first[1..] + (" " + rest);
    assert (" " + rest)[1..] == rest;
    assert WordStarts(" " + rest, false) == WordStarts(rest, true);
    assert WordStarts(rest, true)[0] == rest[0];
    assert Take(WordStarts(s, true), 2) == [first[0], rest[0]];
  }

  /** Characters inside a word, after its first, contribute nothing. */
  lemma {:induction false} WordStartsSkip(w: string, t: string)
    requires forall i :: 0 <= i < |w| ==> w[i] != ' '
    ensures WordStarts(w + t, false) == WordStarts(t, false)
    decreases |w|
  {
    if |w| > 0 {
      assert (w + t)[1..] == w[1..] + t;
      WordStartsSkip(w[1..], t);
    } else {
      assert w + t == t;
    }
  }
}

=== FILE: campaigns.dfy ===
/** `useCampaigns`: the campaign list, creation with the budget ceiling, and partial updates. */
module Campaigns {
  import opened Wrappers
  import opened Seqs
  import opened Store

  /** The largest budget creation lets through (one billion). */
  const MaxBudget: int := 1_000_000_000

  /** `fetchCampaigns`: signed out gives the empty list, a store error keeps the old one,
      otherwise every visible campaign newest first. */
  function FetchCampaigns(prev: seq<Campaign>, st: Store, user: Option<Id>, ok: bool): (list: seq<Campaign>)
    ensures user.None? ==> list == []
    ensures user.Some? && !ok ==> list == prev
    ensures user.Some? && ok ==> multiset(list) == multiset(st.campaigns)
    ensures user.Some? && ok ==> forall i, j :: 0 <= i < j < |list| ==> list[i].createdAt >= list[j].createdAt
  {
    if user.None? then []
    else if !ok then prev
    else
      var key := (c: Campaign) => c.createdAt;
      var list := SortDesc(st.campaigns, key);
      assert forall i, j :: 0 <= i < j < |list| ==> key(list[i]) >= key(list[j]);
      list
  }

  /** The requested budget after the ceiling: a budget above one billion becomes one billion;
      an absent or zero budget, and every other value, passes unchanged. */
  function ClampBudget(budget: Option<int>): (r: Option<int>)
    ensures r.Some? <==> budget.Some?
    ensures r.Some? ==> r.value <= MaxBudget
    ensures budget.Some? && budget.value > MaxBudget ==> r == Some(MaxBudget)
    ensures budget.None? || budget.value <= MaxBudget ==> r == budget
  {
    if budget.Some? && budget.value != 0 && budget.value > MaxBudget then Some(MaxBudget) else budget
  }

  /** Clamping twice is clamping once. */
  lemma ClampIdempotent(budget: Option<int>)
    ensures ClampBudget(ClampBudget(budget)) == ClampBudget(budget)
  {
  }

  /** The fields a caller supplies when creating a campaign. */
  datatype NewCampaign = NewCampaign(name: string, pacId: Id, description: Option<string>, budget: Option<int>)

  /** The row the store builds from an insert: the supplied fields, the clamped budget or the
      column default, and the column defaults for status and creation time. */
  function InsertedRow(d: NewCampaign, id: Id, defaultBudget: int, defaultStatus: string, now: int): (c: Campaign)
    ensures c.id == id && c.name == d.name && c.pacId == d.pacId && c.description == d.description
    ensures c.budget == ClampBudget(d.budget).GetOr(defaultBudget)
    ensures d.budget.Some? ==> c.budget <= MaxBudget
    ensures c.status == defaultStatus && c.createdAt == now
  {
    Campaign(id, d.pacId, d.name, d.description, ClampBudget(d.budget).GetOr(defaultBudget), defaultStatus, now)
  }

  /** `createCampaign`: signed out is an error; a store error leaves store and list unchanged;
      success adds the row to the table and puts it at the head of the list. */
  function CreateCampaign(st: Store, list: seq<Campaign>, user: Option<Id>, d: NewCampaign, id: Id,
                          defaultBudget: int, defaultStatus: string, now: int, ok: bool)
    : (r: (Store, seq<Campaign>, Result<Campaign>))
    ensures user.None? ==> r == (st, list, Err(NotAuthenticated))
    ensures user.Some? && !ok ==> r == (st, list, Err(StoreRejected))
    ensures r.2.Success? <==> user.Some? && ok
    ensures r.2.Success? ==>
      r.2.value == InsertedRow(d, id, defaultBudget, defaultStatus, now)
      && r.0 == st.(campaigns := st.campaigns + [r.2.value])
      && r.1 == [r.2.value] + list
  {
    if user.None? then (st, list, Err(NotAuthenticated))
    else if !ok then (st, list, Err(StoreRejected))
    else
      var row := InsertedRow(d, id, defaultBudget, defaultStatus, now);
      (st.(campaigns := st.campaigns + [row]), [row] + list, Success(row))
  }

  /** `Partial<Campaign>`: each column the update sets, or None to leave it. */
  datatype CampaignPatch = CampaignPatch(
    pacId: Option<Id>,
    name: Option<string>,
    description: Option<Option<string>>,
    budget: Option<int>,
    status: Option<string>)

  /** The row after the patch: supplied columns overwritten, the rest, id and creation time kept. */
  function ApplyPatch(c: Campaign, p: CampaignPatch): (r: Campaign)
    ensures r.id == c.id && r.createdAt == c.createdAt
    ensures r.pacId == p.pacId.GetOr(c.pacId) && r.name == p.name.GetOr(c.name)
    ensures r.description == p.description.GetOr(c.description)
    ensures r.budget == p.budget.GetOr(c.budget) && r.status == p.status.GetOr(c.status)
  {
    c.(pacId := p.pacId.GetOr(c.pacId), name := p.name.GetOr(c.name),
       description := p.description.GetOr(c.description),
       budget := p.budget.GetOr(c.budget), status := p.status.GetOr(c.status))
  }

  /** Applying a patch twice is applying it once, and the empty patch changes nothing. */
  lemma PatchIdempotent(c: Campaign, p: CampaignPatch)
    ensures ApplyPatch(ApplyPatch(c, p), p) == ApplyPatch(c, p)
    ensures ApplyPatch(c, CampaignPatch(None, None, None, None, None)) == c
  {
  }

  /** The number of campaigns carrying `id`. */
  function CampaignsWithId(cs: seq<Campaign>, id: Id): nat
  {
    Count(cs, (c: Campaign) => c.id == id)
  }

  /** `updateCampaign`: signed out is an error; the update with `.single()` succeeds only when
      exactly one row has the id, which then takes the patch, and every list entry with that
      id is replaced by the updated row. Failures change nothing. */
  function UpdateCampaign(st: Store, list: seq<Campaign>, user: Option<Id>, id: Id, p: CampaignPatch, ok: bool)
    : (r: (Store, seq<Campaign>, Result<Campaign>))
    ensures user.None? ==> r == (st, list, Err(NotAuthenticated))
    ensures r.2.Success? <==> user.Some? && ok && CampaignsWithId(st.campaigns, id) == 1
    ensures user.Some? && r.2.Err? ==> r == (st, list, Err(StoreRejected))
    ensures r.0.(campaigns := st.campaigns) == st && |r.0.campaigns| == |st.campaigns| && |r.1| == |list|
    ensures forall i :: 0 <= i < |st.campaigns| ==>
      r.0.campaigns[i] == if r.2.Success? && st.campaigns[i].id == id then ApplyPatch(st.campaigns[i], p) else st.campaigns[i]
    ensures forall i :: 0 <= i < |list| ==>
      r.1[i] == if r.2.Success? && list[i].id == id then r.2.value else list[i]
    ensures r.2.Success? ==> r.2.value in r.0.campaigns && r.2.value.id == id
  {
    if user.None? then (st, list, Err(NotAuthenticated))
    else if !(ok && CampaignsWithId(st.campaigns, id) == 1) then (st, list, Err(StoreRejected))
    else
      var hit := (c: Campaign) => c.id == id;
      var rows := MapIf(st.campaigns, hit, (c: Campaign) => ApplyPatch(c, p));
      var k := IndexWhere(st.campaigns, hit);
      if k == -1 then
        CountNone(st.campaigns, hit);
        assert false;
        (st, list, Err(StoreRejected))
      else
        var data := rows[k];
        (st.(campaigns := rows), MapIf(list, hit, (c: Campaign) => data), Success(data))
  }

  /** A campaign created with an id not yet in the table can be updated right away; the list
      then starts with the patched row. */
  lemma {:induction false} CreateThenUpdate(st: Store, list: seq<Campaign>, u: Id, d: NewCampaign, id: Id,
                                            defaultBudget: int, defaultStatus: string, now: int, p: CampaignPatch)
    requires forall i :: 0 <= i < |st.campaigns| ==> st.campaigns[i].id != id
    ensures var c := CreateCampaign(st, list, Some(u), d, id, defaultBudget, defaultStatus, now, true);
      var up := UpdateCampaign(c.0, c.1, Some(u), id, p, true);
      up.2 == Success(ApplyPatch(c.2.value, p)) && up.1[0] == ApplyPatch(c.2.value, p)
  {
    var c := CreateCampaign(st, list, Some(u), d, id, defaultBudget, defaultStatus, now, true);
    var hit := (x: Campaign) => x.id == id;
    CountNone(st.campaigns, hit);
    CountAppend(st.campaigns, [c.2.value], hit);
    assert CampaignsWithId(c.0.campaigns, id) == 1;
    var up := UpdateCampaign(c.0, c.1, Some(u), id, p, true);
    var last := |st.campaigns|;
    assert c.0.campaigns[last] == c.2.value;
    assert up.0.campaigns[last] == ApplyPatch(c.2.value, p);
    var k :| 0 <= k < |up.0.campaigns| && up.0.campaigns[k] == up.2.value;
    assert up.0.campaigns[k].id == id;
    assert k == last;
  }
}

=== FILE: compliance.dfy ===
/** The compliance review engine of `useCompliance`: statistics, the pending-review queue,
    the approve / request-revision transitions, the report query and the audit log. */
module Compliance {
  import opened Wrappers
  import opened Seqs
  import opened Store

  datatype ComplianceStats = ComplianceStats(
    totalSubmissions: nat,
    compliant: nat,
    pendingReview: nat,
    flagged: nat,
    complianceRate: nat)

  /** A queue entry projected from a submission. */
  datatype ComplianceItem = ComplianceItem(
    id: Id,
    itemType: string,
    title: string,
    status: string,
    priority: string,
    createdAt: int,
    campaignName: Option<string>,
    influencerName: Option<string>,
    platform: Option<string>,
    issues: seq<string>)

  /** An audit entry; the hook declares the shape but never stores one. */
  datatype AuditLogEntry = AuditLogEntry(
    id: Id,
    action: string,
    userId: Id,
    targetType: string,
    targetId: Id,
    details: string,
    timestamp: int)

  /** The hook's local state. */
  datatype ComplianceView = ComplianceView(
    stats: Option<ComplianceStats>,
    pendingItems: seq<ComplianceItem>,
    auditLog: seq<AuditLogEntry>,
    loading: bool)

  /** The state on mount: no stats, nothing queued, an empty audit log, loading. */
  const InitialView: ComplianceView := ComplianceView(None, [], [], true)

  const QueueLimit: nat := 20

  predicate IsCompliant(s: Submission) { s.status == Approved && s.complianceChecked }
  predicate IsPending(s: Submission) { s.status == Pending }
  predicate IsFlagged(s: Submission) { s.status == RevisionRequested }
  predicate AwaitsReview(s: Submission) { s.status == Pending || s.status == RevisionRequested }

  /** The status / flag coupling every transition of the workflow keeps. */
  predicate Coupled(s: Submission)
  {
    (s.complianceChecked ==> s.status == Approved) && (s.status == RevisionRequested ==> !s.complianceChecked)
  }

  predicate AllCoupled(subs: seq<Submission>)
  {
    forall i :: 0 <= i < |subs| ==> Coupled(subs[i])
  }

  /** The compliance percentage, or 0 for an empty total: the exact integer nearest to
      100·compliant/total, halves rounded up. The dashboard rounds a double-precision quotient
      instead, which can land one lower on an exact half (23 of 40 gives 57 there). */
  function ComplianceRate(compliant: nat, total: nat): (r: nat)
    requires compliant <= total
    ensures total == 0 ==> r == 0
    ensures total > 0 ==> 2 * r * total <= 200 * compliant + total < 2 * (r + 1) * total
    ensures r <= 100
    ensures total > 0 && compliant == total ==> r == 100
  {
    if total == 0 then 0
    else
      var r := (200 * compliant + total) / (2 * total);
      RateBound(compliant, total, r);
      r
  }

  lemma RateBound(compliant: nat, total: nat, r: nat)
    requires 0 < total && compliant <= total
    requires r == (200 * compliant + total) / (2 * total)
    ensures 2 * r * total <= 200 * compliant + total < 2 * (r + 1) * total
    ensures r <= 100
    ensures compliant == total ==> r == 100
  {
    var a := 200 * compliant + total;
    var b := 2 * total;
    DivBounds(a, b, r);
    assert 2 * r * total == r * b;
    assert 2 * (r + 1) * total == (r + 1) * b == r * b + b;
    assert a < 101 * b;
    MulCancel(r, 101, b);
    if compliant == total {
      assert 100 * b <= a;
      MulCancel(100, r + 1, b);
    }
  }

  lemma DivBounds(a: nat, b: nat, q: nat)
    requires 0 < b && q == a / b
    ensures q * b <= a < q * b + b
  {
  }

  lemma MulCancel(x: nat, y: nat, b: nat)
    requires x * b < y * b
    ensures x < y
  {
  }

  /** The statistics of `fetchStats` over the admin's submissions. */
  function ComputeStats(subs: seq<Submission>): (r: ComplianceStats)
    ensures r.totalSubmissions == |subs|
    ensures r.compliant == Count(subs, IsCompliant)
    ensures r.pendingReview == Count(subs, IsPending)
    ensures r.flagged == Count(subs, IsFlagged)
    ensures r.compliant + r.pendingReview + r.flagged <= r.totalSubmissions
    ensures r.complianceRate <= 100
    ensures r.totalSubmissions == 0 ==> r.complianceRate == 0
    ensures r.totalSubmissions > 0 && r.compliant == r.totalSubmissions ==> r.complianceRate == 100
    ensures r.totalSubmissions > 0 ==>
      2 * r.complianceRate * r.totalSubmissions <= 200 * r.compliant + r.totalSubmissions
      < 2 * (r.complianceRate + 1) * r.totalSubmissions
  {
    CountDisjoint3(subs, IsCompliant, IsPending, IsFlagged);
    var c := Count(subs, IsCompliant);
    ComplianceStats(|subs|, c, Count(subs, IsPending), Count(subs, IsFlagged), ComplianceRate(c, |subs|))
  }

  /** The submissions under campaigns whose PAC `user` administers. */
  function OwnedSubmissions(st: Store, user: Id): (r: seq<Submission>)
    ensures forall i :: 0 <= i < |r| ==> r[i] in st.submissions && AdministeredBy(st, r[i].campaignId, user)
    ensures forall s :: s in st.submissions && AdministeredBy(st, s.campaignId, user) ==> s in r
    ensures forall s ::
      multiset(r)[s] == if AdministeredBy(st, s.campaignId, user) then multiset(st.submissions)[s] else 0
  {
    var p := (s: Submission) => AdministeredBy(st, s.campaignId, user);
    FilterMultiset(st.submissions, p);
    Filter(st.submissions, p)
  }

  /** The projection of one submission into a queue item. */
  function ToItem(st: Store, sub: Submission): (item: ComplianceItem)
    ensures item.id == sub.id && item.status == sub.status && item.createdAt == sub.createdAt
    ensures item.priority == "high" <==> sub.status == RevisionRequested
    ensures item.priority != "high" ==> item.priority == "medium"
    ensures |item.issues| <= 1
    ensures |item.issues| == 1 <==> Truthy(sub.reviewNotes)
    ensures |item.issues| == 1 ==> item.issues[0] == sub.reviewNotes.value
    ensures item.title == sub.contentType + " - " + sub.platform
    ensures item.itemType == "submission"
    ensures item.campaignName ==
      (if CampaignById(st.campaigns, sub.campaignId).Some?
       then Some(CampaignById(st.campaigns, sub.campaignId).value.name) else None)
    ensures item.influencerName == InfluencerName(st, sub.influencerId)
    ensures item.platform == Some(sub.platform)
  {
    var campaign := CampaignById(st.campaigns, sub.campaignId);
    ComplianceItem(
      sub.id,
      "submission",
      sub.contentType + " - " + sub.platform,
      sub.status,
      if sub.status == RevisionRequested then "high" else "medium",
      sub.createdAt,
      if campaign.Some? then Some(campaign.value.name) else None,
      InfluencerName(st, sub.influencerId),
      Some(sub.platform),
      if Truthy(sub.reviewNotes) then [sub.reviewNotes.value] else [])
  }

  /** The admin's submissions awaiting review (pending or revision requested). */
  function Reviewable(st: Store, user: Id): (r: seq<Submission>)
    ensures forall i :: 0 <= i < |r| ==> r[i] in OwnedSubmissions(st, user) && AwaitsReview(r[i])
    ensures forall s :: s in st.submissions && AdministeredBy(st, s.campaignId, user) && AwaitsReview(s) ==> s in r
    ensures forall s ::
      multiset(r)[s] ==
        if AdministeredBy(st, s.campaignId, user) && AwaitsReview(s) then multiset(st.submissions)[s] else 0
  {
    FilterMultiset(OwnedSubmissions(st, user), AwaitsReview);
    Filter(OwnedSubmissions(st, user), AwaitsReview)
  }

  /** The rows `fetchPendingItems` asks for: newest first, at most twenty. */
  function QueueRows(st: Store, user: Id): (rows: seq<Submission>)
    ensures |rows| <= QueueLimit
    ensures |rows| == if |Reviewable(st, user)| <= QueueLimit then |Reviewable(st, user)| else QueueLimit
    ensures forall i :: 0 <= i < |rows| ==> rows[i] in Reviewable(st, user)
    ensures multiset(rows) <= multiset(Reviewable(st, user))
    ensures SortedDesc(rows, (s: Submission) => s.createdAt)
  {
    var key := (s: Submission) => s.createdAt;
    var sorted := SortDesc(Reviewable(st, user), key);
    TakeSorted(sorted, QueueLimit, key);
    Take(sorted, QueueLimit)
  }

  /** `fetchPendingItems`' projection: a bounded, newest-first queue of the admin's
      submissions awaiting review. */
  function PendingQueue(st: Store, user: Id): (q: seq<ComplianceItem>)
    ensures |q| <= QueueLimit
    ensures |q| == |QueueRows(st, user)|
    ensures forall i :: 0 <= i < |q| ==> q[i] == ToItem(st, QueueRows(st, user)[i])
    ensures forall i :: 0 <= i < |q| ==>
      q[i].id == QueueRows(st, user)[i].id && q[i].createdAt == QueueRows(st, user)[i].createdAt
    ensures forall i :: 0 <= i < |q| ==> q[i].status == Pending || q[i].status == RevisionRequested
    ensures forall i, j :: 0 <= i < j < |q| ==> q[i].createdAt >= q[j].createdAt
    ensures forall i :: 0 <= i < |q| ==> HasOwnedRow(st, user, q[i].id)
    ensures forall i :: 0 <= i < |q| ==> (q[i].priority == "high" <==> q[i].status == RevisionRequested)
    ensures forall i :: 0 <= i < |q| ==> q[i].priority == "high" || q[i].priority == "medium"
  {
    var rows := QueueRows(st, user);
    var q := ToItems(st, rows);
    QueueOwned(st, user, rows, q);
    QueueShape(st, rows, q);
    q
  }

  /** `rows.map(...)` into queue items. */
  function ToItems(st: Store, rows: seq<Submission>): (q: seq<ComplianceItem>)
    ensures |q| == |rows|
    ensures forall i :: 0 <= i < |q| ==> q[i] == ToItem(st, rows[i])
  {
    seq(|rows|, i requires 0 <= i < |rows| => ToItem(st, rows[i]))
  }

  lemma QueueShape(st: Store, rows: seq<Submission>, q: seq<ComplianceItem>)
    requires SortedDesc(rows, (s: Submission) => s.createdAt)
    requires forall i :: 0 <= i < |rows| ==> AwaitsReview(rows[i])
    requires |q| == |rows| && forall i :: 0 <= i < |q| ==> q[i] == ToItem(st, rows[i])
    ensures forall i :: 0 <= i < |q| ==> q[i].status == Pending || q[i].status == RevisionRequested
    ensures forall i, j :: 0 <= i < j < |q| ==> q[i].createdAt >= q[j].createdAt
    ensures forall i :: 0 <= i < |q| ==> (q[i].priority == "high" <==> q[i].status == RevisionRequested)
    ensures forall i :: 0 <= i < |q| ==> q[i].priority == "high" || q[i].priority == "medium"
  {
    var key := (s: Submission) => s.createdAt;
    forall i, j | 0 <= i < j < |q| ensures q[i].createdAt >= q[j].createdAt {
      assert key(rows[i]) >= key(rows[j]);
    }
  }

  /** Some row of the store with this id belongs to a campaign `user` administers. */
  predicate HasOwnedRow(st: Store, user: Id, id: Id)
  {
    exists s :: s in st.submissions && s.id == id && AdministeredBy(st, s.campaignId, user)
  }

  lemma QueueOwned(st: Store, user: Id, rows: seq<Submission>, q: seq<ComplianceItem>)
    requires forall i :: 0 <= i < |rows| ==> rows[i] in Reviewable(st, user)
    requires |q| == |rows| && forall i :: 0 <= i < |q| ==> q[i].id == rows[i].id
    ensures forall i :: 0 <= i < |rows| ==> AwaitsReview(rows[i])
    ensures forall i :: 0 <= i < |q| ==> HasOwnedRow(st, user, q[i].id)
  {
    forall i | 0 <= i < |rows|
      ensures AwaitsReview(rows[i]) && rows[i] in st.submissions && AdministeredBy(st, rows[i].campaignId, user)
    {
      assert multiset(Reviewable(st, user))[rows[i]] > 0;
    }
    forall i | 0 <= i < |q| ensures HasOwnedRow(st, user, q[i].id) {
      assert rows[i].id == q[i].id;
    }
  }

  /** The queue holds the newest reviewable submissions: any reviewable submission left
      out is no newer than every queued one. */
  lemma QueueHoldsNewest(st: Store, user: Id, s: Submission)
    requires s in Reviewable(st, user) && s !in QueueRows(st, user)
    ensures forall i :: 0 <= i < |PendingQueue(st, user)| ==> s.createdAt <= PendingQueue(st, user)[i].createdAt
  {
    var key := (x: Submission) => x.createdAt;
    var sorted := SortDesc(Reviewable(st, user), key);
    var rows := QueueRows(st, user);
    assert rows == Take(sorted, QueueLimit);
    assert s in multiset(sorted);
    TakeKeepsNewest(sorted, QueueLimit, key, s);
    var q := PendingQueue(st, user);
    forall i | 0 <= i < |q|
      ensures s.createdAt <= q[i].createdAt
    {
      assert q[i].createdAt == rows[i].createdAt;
      assert key(s) <= key(rows[i]);
    }
  }

  /** `fetchStats`: without a user or on a store error the stats stay as they were. */
  function FetchStats(view: ComplianceView, st: Store, user: Option<Id>, ok: bool): (v: ComplianceView)
    ensures v.pendingItems == view.pendingItems && v.auditLog == view.auditLog && !v.loading
    ensures user.None? || !ok ==> v.stats == view.stats
    ensures user.Some? && ok ==> v.stats == Some(ComputeStats(OwnedSubmissions(st, user.value)))
  {
    if user.None? || !ok then view.(loading := false)
    else view.(stats := Some(ComputeStats(OwnedSubmissions(st, user.value))), loading := false)
  }

  /** `fetchPendingItems`: without a user or on a store error the queue stays as it was. */
  function FetchPending(view: ComplianceView, st: Store, user: Option<Id>, ok: bool): (v: ComplianceView)
    ensures v.stats == view.stats && v.auditLog == view.auditLog && v.loading == view.loading
    ensures user.None? || !ok ==> v.pendingItems == view.pendingItems
    ensures user.Some? && ok ==> v.pendingItems == PendingQueue(st, user.value)
    ensures user.Some? && ok ==> |v.pendingItems| <= QueueLimit
  {
    if user.None? || !ok then view
    else view.(pendingItems := PendingQueue(st, user.value))
  }

  /** The mount effect: signed out clears stats and queue, signed in fetches both. */
  function LoadData(view: ComplianceView, st: Store, user: Option<Id>, statsOk: bool, pendingOk: bool): (v: ComplianceView)
    ensures v.auditLog == view.auditLog && !v.loading
    ensures user.None? ==> v.stats.None? && v.pendingItems == []
    ensures user.Some? && statsOk ==> v.stats == Some(ComputeStats(OwnedSubmissions(st, user.value)))
    ensures user.Some? && pendingOk ==> v.pendingItems == PendingQueue(st, user.value)
  {
    if user.None? then view.(stats := None, pendingItems := [], loading := false)
    else FetchPending(FetchStats(view.(loading := true), st, user, statsOk), st, user, pendingOk)
  }

  /** The queue is as long as the stats' pending and flagged counts allow: every awaiting
      submission is in it until the limit of twenty is reached. */
  lemma QueueMatchesStats(st: Store, user: Id)
    ensures var s := ComputeStats(OwnedSubmissions(st, user));
      |PendingQueue(st, user)| == if s.pendingReview + s.flagged <= QueueLimit then s.pendingReview + s.flagged else QueueLimit
  {
    var owned := OwnedSubmissions(st, user);
    CountIsFilterLength(owned, AwaitsReview);
    CountUnion(owned, IsPending, IsFlagged, AwaitsReview);
  }

  /** After a successful load the two fetches agree: the queue holds min(20, pending + flagged)
      items of the freshly computed stats. */
  lemma LoadedQueueMatchesStats(view: ComplianceView, st: Store, user: Id)
    ensures var v := LoadData(view, st, Some(user), true, true);
      v.stats.Some?
      && |v.pendingItems| == if v.stats.value.pendingReview + v.stats.value.flagged <= QueueLimit
                             then v.stats.value.pendingReview + v.stats.value.flagged else QueueLimit
  {
    QueueMatchesStats(st, user);
  }

  /** The update both transitions send, applied to one row; absent notes (`undefined`)
      leave the stored notes in place. */
  function Review(s: Submission, status: string, checked: bool, notes: Option<string>, now: int): Submission
  {
    s.(status := status, complianceChecked := checked,
       reviewNotes := if notes.Some? then notes else s.reviewNotes, updatedAt := now)
  }

  /** `update(...).eq('id', id)` on the submissions table. */
  function UpdateById(st: Store, id: Id, status: string, checked: bool, notes: Option<string>, now: int): (st': Store)
    ensures st'.(submissions := st.submissions) == st
    ensures |st'.submissions| == |st.submissions|
    ensures forall i :: 0 <= i < |st.submissions| && st.submissions[i].id != id ==> st'.submissions[i] == st.submissions[i]
    ensures forall i :: 0 <= i < |st.submissions| && st.submissions[i].id == id ==>
      st'.submissions[i] == Review(st.submissions[i], status, checked, notes, now)
  {
    st.(submissions := MapIf(st.submissions, (s: Submission) => s.id == id,
                             (s: Submission) => Review(s, status, checked, notes, now)))
  }

  /** `createAuditEntry`: it only logs to the console, so nothing is recorded. */
  function CreateAuditEntry(view: ComplianceView, user: Option<Id>, action: string, targetId: Id, details: string): (v: ComplianceView)
    ensures v.auditLog == view.auditLog
  {
    view
  }

  /** `approveSubmission`: on success the row becomes approved and checked and the stats and
      queue are refetched; on a store error nothing changes and the error is returned. */
  function ApproveSubmission(st: Store, view: ComplianceView, user: Option<Id>, id: Id, notes: Option<string>,
                             now: int, ok: bool, statsOk: bool, pendingOk: bool): (r: (Store, ComplianceView, Outcome))
    ensures !ok ==> r.0 == st && r.1 == view && r.2 == Fail(StoreRejected)
    ensures ok ==> r.2 == Pass
    ensures r.0.(submissions := st.submissions) == st && |r.0.submissions| == |st.submissions|
    ensures forall i :: 0 <= i < |st.submissions| && (!ok || st.submissions[i].id != id) ==>
      r.0.submissions[i] == st.submissions[i]
    ensures forall i :: 0 <= i < |st.submissions| && ok && st.submissions[i].id == id ==>
      var s := r.0.submissions[i];
      s.status == Approved && s.complianceChecked && s.updatedAt == now
      && (notes.Some? ==> s.reviewNotes == notes)
      && s.(status := st.submissions[i].status, complianceChecked := st.submissions[i].complianceChecked,
            reviewNotes := st.submissions[i].reviewNotes, updatedAt := st.submissions[i].updatedAt) == st.submissions[i]
    ensures r.1.auditLog == view.auditLog
    ensures ok && user.Some? && statsOk ==> r.1.stats == Some(ComputeStats(OwnedSubmissions(r.0, user.value)))
    ensures ok && user.Some? && pendingOk ==> r.1.pendingItems == PendingQueue(r.0, user.value)
  {
    if !ok then (st, view, Fail(StoreRejected))
    else
      var st' := UpdateById(st, id, Approved, true, notes, now);
      var logged := CreateAuditEntry(view, user, "Submission Approved", id,
                                     if Truthy(notes) then notes.value else "Submission approved for compliance");
      (st', FetchPending(FetchStats(logged, st', user, statsOk), st', user, pendingOk), Pass)
  }

  /** `requestRevision`: on success the row becomes revision-requested, unchecked, with the
      given notes, and the stats and queue are refetched; on a store error nothing changes. */
  function RequestRevision(st: Store, view: ComplianceView, user: Option<Id>, id: Id, notes: string,
                           now: int, ok: bool, statsOk: bool, pendingOk: bool): (r: (Store, ComplianceView, Outcome))
    ensures !ok ==> r.0 == st && r.1 == view && r.2 == Fail(StoreRejected)
    ensures ok ==> r.2 == Pass
    ensures r.0.(submissions := st.submissions) == st && |r.0.submissions| == |st.submissions|
    ensures forall i :: 0 <= i < |st.submissions| && (!ok || st.submissions[i].id != id) ==>
      r.0.submissions[i] == st.submissions[i]
    ensures forall i :: 0 <= i < |st.submissions| && ok && st.submissions[i].id == id ==>
      var s := r.0.submissions[i];
      s.status == RevisionRequested && !s.complianceChecked && s.reviewNotes == Some(notes) && s.updatedAt == now
      && s.(status := st.submissions[i].status, complianceChecked := st.submissions[i].complianceChecked,
            reviewNotes := st.submissions[i].reviewNotes, updatedAt := st.submissions[i].updatedAt) == st.submissions[i]
    ensures r.1.auditLog == view.auditLog
    ensures ok && user.Some? && statsOk ==> r.1.stats == Some(ComputeStats(OwnedSubmissions(r.0, user.value)))
    ensures ok && user.Some? && pendingOk ==> r.1.pendingItems == PendingQueue(r.0, user.value)
  {
    if !ok then (st, view, Fail(StoreRejected))
    else
      var st' := UpdateById(st, id, RevisionRequested, false, Some(notes), now);
      var logged := CreateAuditEntry(view, user, "Revision Requested", id, notes);
      (st', FetchPending(FetchStats(logged, st', user, statsOk), st', user, pendingOk), Pass)
  }

  /** The filters of `generateComplianceReport`; an empty campaign id is falsy and ignored. */
  predicate InReport(st: Store, user: Id, campaignId: Option<Id>, start: Option<int>, end: Option<int>, s: Submission)
  {
    AdministeredBy(st, s.campaignId, user)
    && (Truthy(campaignId) ==> s.campaignId == campaignId.value)
    && (start.Some? ==> start.value <= s.createdAt)
    && (end.Some? ==> s.createdAt <= end.value)
  }

  /** `generateComplianceReport`: the admin's submissions matching the filters, newest first. */
  function GenerateReport(st: Store, user: Option<Id>, campaignId: Option<Id>, start: Option<int>, end: Option<int>,
                          ok: bool): (r: Result<seq<Submission>>)
    ensures user.None? ==> r == Err(NotAuthenticated)
    ensures user.Some? && !ok ==> r == Err(StoreRejected)
    ensures user.Some? && ok ==> r.Success?
    ensures r.Success? ==> forall i :: 0 <= i < |r.value| ==>
      r.value[i] in st.submissions && InReport(st, user.value, campaignId, start, end, r.value[i])
    ensures r.Success? ==> forall s :: s in st.submissions && InReport(st, user.value, campaignId, start, end, s) ==> s in r.value
    ensures r.Success? ==> forall i, j :: 0 <= i < j < |r.value| ==> r.value[i].createdAt >= r.value[j].createdAt
    ensures r.Success? ==>
      forall s :: multiset(r.value)[s] ==
        if InReport(st, user.value, campaignId, start, end, s) then multiset(st.submissions)[s] else 0
  {
    if user.None? then Err(NotAuthenticated)
    else if !ok then Err(StoreRejected)
    else
      var keep := (s: Submission) => InReport(st, user.value, campaignId, start, end, s);
      var rows := Filter(st.submissions, keep);
      FilterMultiset(st.submissions, keep);
      Success(SortDesc(rows, (s: Submission) => s.createdAt))
  }

  /** One action against the compliance hook. */
  datatype ComplianceAction =
    | Load(statsOk: bool, pendingOk: bool)
    | Approve(id: Id, notes: Option<string>, now: int, ok: bool, statsOk: bool, pendingOk: bool)
    | Revise(id: Id, revisionNotes: string, now: int, ok: bool, statsOk: bool, pendingOk: bool)

  function Step(st: Store, view: ComplianceView, user: Option<Id>, a: ComplianceAction): (Store, ComplianceView)
  {
    match a
    case Load(so, po) => (st, LoadData(view, st, user, so, po))
    case Approve(id, notes, now, ok, so, po) =>
      var r := ApproveSubmission(st, view, user, id, notes, now, ok, so, po); (r.0, r.1)
    case Revise(id, notes, now, ok, so, po) =>
      var r := RequestRevision(st, view, user, id, notes, now, ok, so, po); (r.0, r.1)
  }

  function Run(st: Store, view: ComplianceView, user: Option<Id>, actions: seq<ComplianceAction>): (Store, ComplianceView)
    decreases |actions|
  {
    if |actions| == 0 then (st, view)
    else
      var next := Step(st, view, user, actions[0]);
      Run(next.0, next.1, user, actions[1..])
  }

  /** No sequence of hook actions ever adds an audit entry: the log stays empty from mount on. */
  lemma {:induction false} AuditLogStaysEmpty(st: Store, view: ComplianceView, user: Option<Id>, actions: seq<ComplianceAction>)
    requires view.auditLog == []
    ensures Run(st, view, user, actions).1.auditLog == []
    decreases |actions|
  {
    if |actions| > 0 {
      var next := Step(st, view, user, actions[0]);
      AuditLogStaysEmpty(next.0, next.1, user, actions[1..]);
    }
  }

  /** Approve and request-revision keep the status / flag coupling of every row. */
  lemma {:induction false} RunKeepsCoupling(st: Store, view: ComplianceView, user: Option<Id>, actions: seq<ComplianceAction>)
    requires AllCoupled(st.submissions)
    ensures AllCoupled(Run(st, view, user, actions).0.submissions)
    decreases |actions|
  {
    if |actions| > 0 {
      var next := Step(st, view, user, actions[0]);
      assert AllCoupled(next.0.submissions) by {
        forall i | 0 <= i < |next.0.submissions| ensures Coupled(next.0.submissions[i]) {
          assert Coupled(st.submissions[i]);
        }
      }
      RunKeepsCoupling(next.0, next.1, user, actions[1..]);
    }
  }
}

=== FILE: messages.dfy ===
/** `useMessages`: conversation listing, thread selection, find-or-create on send, and
    mark-as-read. */
module Messaging {
  import opened Wrappers
  import opened Seqs
  import opened Store

  /** A conversation enriched with its campaign name and both participants' profiles. */
  datatype ConversationView = ConversationView(
    conv: Conversation,
    campaignName: Option<string>,
    pacProfile: Option<Profile>,
    influencerProfile: Option<Profile>)

  predicate IsParticipant(c: Conversation, user: Id)
  {
    c.pacUserId == user || c.influencerUserId == user
  }

  /** The three lookups of the listing: the campaign's name and the profiles of both sides,
      each absent when the store has no matching row. */
  function Enrich(st: Store, c: Conversation): (v: ConversationView)
    ensures v.conv == c
    ensures v.campaignName.None? <==> forall i :: 0 <= i < |st.campaigns| ==> st.campaigns[i].id != c.campaignId
    ensures v.campaignName.Some? ==>
      exists k :: FirstWithId(st.campaigns, k, c.campaignId) && v.campaignName.value == st.campaigns[k].name
    ensures v.pacProfile.Some? <==> c.pacUserId in st.profiles
    ensures v.pacProfile.Some? ==> v.pacProfile.value == st.profiles[c.pacUserId]
    ensures v.influencerProfile.Some? <==> c.influencerUserId in st.profiles
    ensures v.influencerProfile.Some? ==> v.influencerProfile.value == st.profiles[c.influencerUserId]
  {
    var campaign := CampaignById(st.campaigns, c.campaignId);
    ConversationView(c, if campaign.Some? then Some(campaign.value.name) else None,
                     ProfileOf(st, c.pacUserId), ProfileOf(st, c.influencerUserId))
  }

  predicate Undated(c: Conversation) { c.lastMessageAt.None? }
  predicate Dated(c: Conversation) { c.lastMessageAt.Some? }

  /** `order('last_message_at', { ascending: false })`. Where the store puts conversations
      without a last-message time is its own choice (`nullsFirst`); the dated ones come
      newest first. */
  function OrderByLastMessage(cs: seq<Conversation>, nullsFirst: bool): (r: seq<Conversation>)
    ensures multiset(r) == multiset(cs)
    ensures forall i, j :: 0 <= i < j < |r| && Dated(r[i]) && Dated(r[j]) ==>
      r[i].lastMessageAt.value >= r[j].lastMessageAt.value
  {
    var key := (c: Conversation) => c.lastMessageAt.GetOr(0);
    var undated := Filter(cs, Undated);
    var dated := SortDesc(Filter(cs, Dated), key);
    FilterPartition(cs, Undated, Dated);
    var r := if nullsFirst then undated + dated else dated + undated;
    BlocksOrdered(undated, dated, nullsFirst);
    r
  }

  lemma BlocksOrdered(undated: seq<Conversation>, dated: seq<Conversation>, nullsFirst: bool)
    requires forall k :: 0 <= k < |undated| ==> Undated(undated[k])
    requires SortedDesc(dated, (c: Conversation) => c.lastMessageAt.GetOr(0))
    ensures var r := if nullsFirst then undated + dated else dated + undated;
      forall i, j :: 0 <= i < j < |r| && Dated(r[i]) && Dated(r[j]) ==>
        r[i].lastMessageAt.value >= r[j].lastMessageAt.value
  {
    var key := (c: Conversation) => c.lastMessageAt.GetOr(0);
    var r := if nullsFirst then undated + dated else dated + undated;
    var off := if nullsFirst then |undated| else 0;
    forall i, j | 0 <= i < j < |r| && Dated(r[i]) && Dated(r[j])
      ensures r[i].lastMessageAt.value >= r[j].lastMessageAt.value
    {
      if nullsFirst {
        assert i >= off;
        assert r[j] == dated[j - off] && r[i] == dated[i - off];
      } else {
        assert j < |dated|;
        assert r[j] == dated[j] && r[i] == dated[i];
      }
      assert key(dated[i - off]) >= key(dated[j - off]);
    }
  }

  /** The conversation list: empty when signed out, unchanged on a store error, otherwise
      exactly the user's conversations (either side), ordered by last message. */
  function ListConversations(prev: seq<ConversationView>, st: Store, user: Option<Id>, ok: bool, nullsFirst: bool)
    : (r: seq<ConversationView>)
    ensures user.None? ==> r == []
    ensures user.Some? && !ok ==> r == prev
    ensures user.Some? && ok ==> forall i :: 0 <= i < |r| ==> r[i].conv in st.conversations && IsParticipant(r[i].conv, user.value)
    ensures user.Some? && ok ==> forall c :: c in st.conversations && IsParticipant(c, user.value) ==>
      exists i :: 0 <= i < |r| && r[i].conv == c
    ensures user.Some? && ok ==> forall i, j :: 0 <= i < j < |r| && Dated(r[i].conv) && Dated(r[j].conv) ==>
      r[i].conv.lastMessageAt.value >= r[j].conv.lastMessageAt.value
    ensures user.Some? && ok ==>
      forall c :: multiset(Convs(r))[c] ==
        if IsParticipant(c, user.value) then multiset(st.conversations)[c] else 0
  {
    if user.None? then []
    else if !ok then prev
    else
      var mine := Filter(st.conversations, (c: Conversation) => IsParticipant(c, user.value));
      var ordered := OrderByLastMessage(mine, nullsFirst);
      var r := EnrichAll(st, ordered);
      ListingComplete(st, user.value, mine, ordered, r);
      ListingCounts(st, user.value, mine, ordered, r);
      r
  }

  /** The listing holds each of the user's conversations as often as the store does. */
  lemma ListingCounts(st: Store, u: Id, mine: seq<Conversation>, ordered: seq<Conversation>, r: seq<ConversationView>)
    requires mine == Filter(st.conversations, (c: Conversation) => IsParticipant(c, u))
    requires multiset(ordered) == multiset(mine)
    requires |r| == |ordered| && forall i :: 0 <= i < |r| ==> r[i].conv == ordered[i]
    ensures forall c :: multiset(Convs(r))[c] == if IsParticipant(c, u) then multiset(st.conversations)[c] else 0
  {
    FilterMultiset(st.conversations, (c: Conversation) => IsParticipant(c, u));
    assert Convs(r) == ordered;
  }

  /** `conversations.map(...)` through the three enrichment lookups. */
  function EnrichAll(st: Store, cs: seq<Conversation>): (r: seq<ConversationView>)
    ensures |r| == |cs|
    ensures forall i :: 0 <= i < |r| ==> r[i] == Enrich(st, cs[i])
    ensures Convs(r) == cs
  {
    var r := seq(|cs|, i requires 0 <= i < |cs| => Enrich(st, cs[i]));
    assert Convs(r) == cs;
    r
  }

  /** The conversation rows behind a list of views. */
  function Convs(vs: seq<ConversationView>): (cs: seq<Conversation>)
    ensures |cs| == |vs|
    ensures forall i :: 0 <= i < |vs| ==> cs[i] == vs[i].conv
  {
    seq(|vs|, i requires 0 <= i < |vs| => vs[i].conv)
  }

  lemma ListingComplete(st: Store, u: Id, mine: seq<Conversation>, ordered: seq<Conversation>, r: seq<ConversationView>)
    requires mine == Filter(st.conversations, (c: Conversation) => IsParticipant(c, u))
    requires multiset(ordered) == multiset(mine)
    requires |r| == |ordered| && forall i :: 0 <= i < |r| ==> r[i].conv == ordered[i]
    ensures forall i :: 0 <= i < |r| ==> r[i].conv in st.conversations && IsParticipant(r[i].conv, u)
    ensures forall c :: c in st.conversations && IsParticipant(c, u) ==> exists i :: 0 <= i < |r| && r[i].conv == c
  {
    SameMembers(ordered, mine);
    forall i | 0 <= i < |r| ensures r[i].conv in st.conversations && IsParticipant(r[i].conv, u) {
      var k :| 0 <= k < |mine| && mine[k] == ordered[i];
    }
    forall c | c in st.conversations && IsParticipant(c, u)
      ensures exists i :: 0 <= i < |r| && r[i].conv == c
    {
      var k0 :| 0 <= k0 < |st.conversations| && st.conversations[k0] == c;
      assert c in mine;
      var k :| 0 <= k < |mine| && mine[k] == c;
      var i :| 0 <= i < |ordered| && ordered[i] == c;
      assert r[i].conv == c;
    }
  }

  /** The message filter of `fetchMessages`: same campaign, and each participant is the
      sender or the recipient. */
  predicate InThread(c: Conversation, m: Message)
  {
    m.campaignId == c.campaignId
    && (m.senderId == c.pacUserId || m.recipientId == c.pacUserId)
    && (m.senderId == c.influencerUserId || m.recipientId == c.influencerUserId)
  }

  /** Position `k` holds the first listed conversation with the given id. */
  predicate FirstConversation(convs: seq<ConversationView>, k: int, id: Id)
  {
    0 <= k < |convs| && convs[k].conv.id == id && forall j :: 0 <= j < k ==> convs[j].conv.id != id
  }

  /** The index of the first listed conversation with this id, or -1. */
  function FindConversation(convs: seq<ConversationView>, id: Id): (k: int)
    ensures -1 <= k < |convs|
    ensures k >= 0 ==> convs[k].conv.id == id
    ensures k >= 0 ==> forall j :: 0 <= j < k ==> convs[j].conv.id != id
    ensures k == -1 <==> forall i :: 0 <= i < |convs| ==> convs[i].conv.id != id
  {
    IndexWhere(convs, (v: ConversationView) => v.conv.id == id)
  }

  /** `fetchMessages`: no selection (or an empty id) or no user clears the thread; an id
      missing from the list or a store error leaves it; otherwise it is the conversation's
      messages, oldest first. */
  function FetchThread(prev: seq<Message>, convs: seq<ConversationView>, selected: Option<Id>, user: Option<Id>,
                       st: Store, ok: bool): (r: seq<Message>)
    ensures !Truthy(selected) || user.None? ==> r == []
    ensures Truthy(selected) && user.Some? && (FindConversation(convs, selected.value) == -1 || !ok) ==> r == prev
    ensures Truthy(selected) && user.Some? && FindConversation(convs, selected.value) >= 0 && ok ==>
      var c := convs[FindConversation(convs, selected.value)].conv;
      (forall i :: 0 <= i < |r| ==> r[i] in st.messages && InThread(c, r[i]))
      && (forall m :: m in st.messages && InThread(c, m) ==> m in r)
      && (forall i, j :: 0 <= i < j < |r| ==> r[i].createdAt <= r[j].createdAt)
      && (forall m :: multiset(r)[m] == if InThread(c, m) then multiset(st.messages)[m] else 0)
  {
    if !Truthy(selected) || user.None? then []
    else
      var k := FindConversation(convs, selected.value);
      if k == -1 || !ok then prev
      else
        Thread(st, convs[k].conv)
  }

  /** The messages of one conversation, oldest first, each as often as the store holds it. */
  function Thread(st: Store, c: Conversation): (r: seq<Message>)
    ensures forall i :: 0 <= i < |r| ==> r[i] in st.messages && InThread(c, r[i])
    ensures forall m :: m in st.messages && InThread(c, m) ==> m in r
    ensures forall i, j :: 0 <= i < j < |r| ==> r[i].createdAt <= r[j].createdAt
    ensures forall m :: multiset(r)[m] == if InThread(c, m) then multiset(st.messages)[m] else 0
  {
    var rows := ThreadRows(st, c);
    var key := (m: Message) => -m.createdAt;
    var r := SortDesc(rows, key);
    NegatedKeyAscends(r, key);
    r
  }

  /** The conversation's messages in store order. */
  function ThreadRows(st: Store, c: Conversation): (r: seq<Message>)
    ensures forall i :: 0 <= i < |r| ==> r[i] in st.messages && InThread(c, r[i])
    ensures forall m :: multiset(r)[m] == if InThread(c, m) then multiset(st.messages)[m] else 0
  {
    var inThread := (m: Message) => InThread(c, m);
    FilterMultiset(st.messages, inThread);
    Filter(st.messages, inThread)
  }

  /** Descending by the negated time is ascending by time. */
  lemma NegatedKeyAscends(r: seq<Message>, key: Message -> int)
    requires forall m :: key(m) == -m.createdAt
    requires SortedDesc(r, key)
    ensures forall i, j :: 0 <= i < j < |r| ==> r[i].createdAt <= r[j].createdAt
  {
    forall i, j | 0 <= i < j < |r| ensures r[i].createdAt <= r[j].createdAt {
      assert key(r[i]) >= key(r[j]);
    }
  }

  /** A conversation on `campaignId` with both users on it, on either side. */
  predicate Links(c: Conversation, campaignId: Id, a: Id, b: Id)
  {
    c.campaignId == campaignId && IsParticipant(c, a) && IsParticipant(c, b)
  }

  predicate HasConversation(st: Store, campaignId: Id, a: Id, b: Id)
  {
    exists c :: c in st.conversations && Links(c, campaignId, a, b)
  }

  /** How many conversations on `campaignId` link the two users. */
  function LinkCount(st: Store, campaignId: Id, a: Id, b: Id): nat
  {
    Count(st.conversations, (c: Conversation) => Links(c, campaignId, a, b))
  }

  /** The `maybeSingle` lookup returns a row only when it succeeds and exactly one
      conversation matches; an error or several matches read as "none found". */
  predicate Found(st: Store, campaignId: Id, a: Id, b: Id, lookupOk: bool)
  {
    lookupOk && LinkCount(st, campaignId, a, b) == 1
  }

  /** A conversation the lookup found does link the two users. */
  lemma FoundIsLinked(st: Store, campaignId: Id, a: Id, b: Id, lookupOk: bool)
    requires Found(st, campaignId, a, b, lookupOk)
    ensures HasConversation(st, campaignId, a, b)
  {
    CountPositive(st.conversations, (c: Conversation) => Links(c, campaignId, a, b));
    var i :| 0 <= i < |st.conversations| && Links(st.conversations[i], campaignId, a, b);
    assert st.conversations[i] in st.conversations;
  }

  /** `sendMessage`. Signed out: an error and no change. Otherwise a conversation is
      inserted (sender as PAC side, recipient as influencer side) unless the lookup found
      the one linking the two on this campaign, or the store refuses the insert; the message
      is then inserted regardless of the conversation insert's fate. */
  function SendMessage(st: Store, user: Option<Id>, recipientId: Id, campaignId: Id, content: string,
                       subject: Option<string>, convId: Id, msgId: Id, now: int,
                       lookupOk: bool, convOk: bool, msgOk: bool)
    : (r: (Store, Result<Message>))
    ensures user.None? ==> r == (st, Err(NotAuthenticated))
    ensures user.Some? && !msgOk ==> r.1 == Err(StoreRejected)
    ensures r.0.(conversations := st.conversations, messages := st.messages) == st
    ensures user.None? || Found(st, campaignId, user.value, recipientId, lookupOk) || !convOk ==>
      r.0.conversations == st.conversations
    ensures user.Some? && !Found(st, campaignId, user.value, recipientId, lookupOk) && convOk ==>
      r.0.conversations == st.conversations + [Conversation(convId, campaignId, user.value, recipientId, None, now)]
    ensures user.Some? ==> HasConversation(r.0, campaignId, user.value, recipientId) || !convOk
    ensures user.None? || !msgOk ==> r.0.messages == st.messages
    ensures user.Some? && msgOk ==> r.1.Success? && r.0.messages == st.messages + [r.1.value]
    ensures r.1.Success? ==>
      var m := r.1.value;
      m.senderId == user.value && m.recipientId == recipientId && m.campaignId == campaignId
      && m.content == content && m.subject == subject && m.readAt.None? && m.id == msgId
  {
    if user.None? then (st, Err(NotAuthenticated))
    else
      var u := user.value;
      var created := Conversation(convId, campaignId, u, recipientId, None, now);
      var found := Found(st, campaignId, u, recipientId, lookupOk);
      var st1 := if found || !convOk then st
                 else st.(conversations := st.conversations + [created]);
      assert HasConversation(st1, campaignId, u, recipientId) || !convOk by {
        if found {
          FoundIsLinked(st, campaignId, u, recipientId, lookupOk);
        } else if convOk {
          assert created in st1.conversations;
        }
      }
      if !msgOk then (st1, Err(StoreRejected))
      else
        var m := Message(msgId, campaignId, u, recipientId, subject, content, None, now);
        (st1.(messages := st1.messages + [m]), Success(m))
  }

  /** Find-or-create settles after one send: when no conversation links the two users yet, a
      first send creates it, and a second send between them on the same campaign creates
      none, as long as both lookups succeed. */
  lemma SecondSendCreatesNoConversation(st: Store, u: Id, recipientId: Id, campaignId: Id,
                                        c1: string, c2: string, s1: Option<string>, s2: Option<string>,
                                        conv1: Id, conv2: Id, m1: Id, m2: Id, t1: int, t2: int, ok1: bool, ok2: bool)
    requires LinkCount(st, campaignId, u, recipientId) == 0
    ensures var st1 := SendMessage(st, Some(u), recipientId, campaignId, c1, s1, conv1, m1, t1, true, true, ok1).0;
      SendMessage(st1, Some(u), recipientId, campaignId, c2, s2, conv2, m2, t2, true, true, ok2).0.conversations
      == st1.conversations
  {
    var link := (c: Conversation) => Links(c, campaignId, u, recipientId);
    var created := Conversation(conv1, campaignId, u, recipientId, None, t1);
    var st1 := SendMessage(st, Some(u), recipientId, campaignId, c1, s1, conv1, m1, t1, true, true, ok1).0;
    assert st1.conversations == st.conversations + [created];
    CountAppend(st.conversations, [created], link);
    assert Count([created], link) == 1 by {
      assert link(created);
      assert [created][1..] == [];
    }
    assert LinkCount(st1, campaignId, u, recipientId) == 1;
  }

  /** Once two conversations link the same users on a campaign, the lookup can no longer
      single one out, and every send whose insert the store accepts adds yet another. */
  lemma DuplicatesKeepGrowing(st: Store, u: Id, recipientId: Id, campaignId: Id, content: string,
                              subject: Option<string>, convId: Id, msgId: Id, now: int, lookupOk: bool, msgOk: bool)
    requires LinkCount(st, campaignId, u, recipientId) >= 2
    ensures var st1 := SendMessage(st, Some(u), recipientId, campaignId, content, subject, convId, msgId, now,
                                   lookupOk, true, msgOk).0;
      |st1.conversations| == |st.conversations| + 1
  {
  }

  /** `markAsRead`: stamps `read_at = now` on the row with this id whose recipient is the
      user, overwriting any earlier stamp; nothing else changes. */
  function MarkAsRead(st: Store, user: Option<Id>, messageId: Id, now: int, ok: bool): (r: (Store, Outcome))
    ensures user.None? ==> r == (st, Fail(NotAuthenticated))
    ensures user.Some? && !ok ==> r == (st, Fail(StoreRejected))
    ensures user.Some? && ok ==> r.1 == Pass
    ensures r.0.(messages := st.messages) == st && |r.0.messages| == |st.messages|
    ensures forall i :: 0 <= i < |st.messages| ==>
      var m := st.messages[i];
      if r.1.Pass? && m.id == messageId && m.recipientId == user.value
      then r.0.messages[i] == m.(readAt := Some(now))
      else r.0.messages[i] == m
  {
    if user.None? then (st, Fail(NotAuthenticated))
    else if !ok then (st, Fail(StoreRejected))
    else
      var hit := (m: Message) => m.id == messageId && m.recipientId == user.value;
      (st.(messages := MapIf(st.messages, hit, (m: Message) => m.(readAt := Some(now)))), Pass)
  }

  /** The guard on the recipient: a call by anyone who is not the recipient of that message
      (its sender, say) changes nothing. */
  lemma MarkAsReadBySenderIsNoOp(st: Store, u: Id, messageId: Id, now: int, ok: bool)
    requires forall i :: 0 <= i < |st.messages| && st.messages[i].id == messageId ==> st.messages[i].recipientId != u
    ensures MarkAsRead(st, Some(u), messageId, now, ok).0 == st
  {
    var st' := MarkAsRead(st, Some(u), messageId, now, ok).0;
    assert st'.messages == st.messages;
  }

  /** Marking twice is not idempotent: the second call's time replaces the first. */
  lemma MarkAsReadOverwrites(st: Store, u: Id, messageId: Id, t1: int, t2: int, i: int)
    requires 0 <= i < |st.messages| && st.messages[i].id == messageId && st.messages[i].recipientId == u
    ensures var st1 := MarkAsRead(st, Some(u), messageId, t1, true).0;
      MarkAsRead(st1, Some(u), messageId, t2, true).0.messages[i].readAt == Some(t2)
  {
    var st1 := MarkAsRead(st, Some(u), messageId, t1, true).0;
    assert st1.messages[i].id == messageId && st1.messages[i].recipientId == u;
  }
}

=== FILE: messages_page.dfy ===
/** The Messages page: search over the conversation list, counterpart display, the
    recipient choice and guard of its send handler, and the "own message" test. */
module MessagesPage {
  import opened Wrappers
  import opened Seqs
  import opened Text
  import opened Store
  import opened Messaging

  /** The page's view of the current user is on the PAC side of the conversation. */
  predicate OnPacSide(c: Conversation, user: Option<Id>)
  {
    user.Some? && c.pacUserId == user.value
  }

  /** `profile?.display_name || fallback`. */
  function NameOr(p: Option<Profile>, fallback: string): (r: string)
    ensures p.Some? && Truthy(p.value.displayName) ==> r == p.value.displayName.value
    ensures !(p.Some? && Truthy(p.value.displayName)) ==> r == fallback
  {
    if p.Some? && Truthy(p.value.displayName) then p.value.displayName.value else fallback
  }

  /** The name searched for: the influencer's when the user is the PAC side, else the PAC's;
      a missing or empty name reads "Unknown". */
  function CounterpartName(v: ConversationView, user: Option<Id>): (r: string)
    ensures OnPacSide(v.conv, user) ==> r == NameOr(v.influencerProfile, "Unknown")
    ensures !OnPacSide(v.conv, user) ==> r == NameOr(v.pacProfile, "Unknown")
  {
    if OnPacSide(v.conv, user) then NameOr(v.influencerProfile, "Unknown")
    else NameOr(v.pacProfile, "Unknown")
  }

  /** On a listed conversation the PAC side sees the influencer's stored display name, or
      "Unknown" when the influencer has no profile or an empty name. */
  lemma EnrichedCounterpart(st: Store, c: Conversation, u: Id)
    requires c.pacUserId == u
    ensures var name := CounterpartName(Enrich(st, c), Some(u));
      if c.influencerUserId in st.profiles && Truthy(st.profiles[c.influencerUserId].displayName)
      then name == st.profiles[c.influencerUserId].displayName.value
      else name == "Unknown"
  {
  }

  /** The search test: the counterpart name or the campaign name contains the term, ignoring case. */
  predicate MatchesSearch(v: ConversationView, user: Option<Id>, term: string)
  {
    var t := ToLower(term);
    Includes(ToLower(CounterpartName(v, user)), t) || Includes(ToLower(v.campaignName.GetOr("")), t)
  }

  /** The search term occurs, ignoring case, in the counterpart name or the campaign name. */
  ghost predicate SearchHit(v: ConversationView, user: Option<Id>, term: string)
  {
    OccursIn(ToLower(term), ToLower(CounterpartName(v, user)))
    || OccursIn(ToLower(term), ToLower(v.campaignName.GetOr("")))
  }

  /** `filteredConversations`. */
  function FilterConversations(convs: seq<ConversationView>, user: Option<Id>, term: string): (r: seq<ConversationView>)
    ensures |r| <= |convs|
    ensures forall i :: 0 <= i < |r| ==> r[i] in convs
    ensures forall i :: 0 <= i < |r| ==> SearchHit(r[i], user, term)
    ensures forall i :: 0 <= i < |convs| && SearchHit(convs[i], user, term) ==> convs[i] in r
  {
    var r := Filter(convs, (v: ConversationView) => MatchesSearch(v, user, term));
    forall v | true
      ensures MatchesSearch(v, user, term) <==> SearchHit(v, user, term)
    {
      IncludesIffOccurs(ToLower(CounterpartName(v, user)), ToLower(term));
      IncludesIffOccurs(ToLower(v.campaignName.GetOr("")), ToLower(term));
    }
    r
  }

  /** The search keeps the list's order. */
  lemma SearchPreservesOrder(convs: seq<ConversationView>, user: Option<Id>, term: string)
    ensures SubsequenceOf(FilterConversations(convs, user, term), convs)
  {
    FilterIsSubsequence(convs, (v: ConversationView) => MatchesSearch(v, user, term));
  }

  /** An empty search term keeps every conversation. */
  lemma EmptySearchKeepsAll(convs: seq<ConversationView>, user: Option<Id>)
    ensures FilterConversations(convs, user, "") == convs
  {
    var p := (v: ConversationView) => MatchesSearch(v, user, "");
    forall i | 0 <= i < |convs| ensures p(convs[i]) {
      assert ToLower("") == "";
      IncludesEmpty(ToLower(CounterpartName(convs[i], user)));
    }
    FilterKeepsAll(convs, p);
  }

  /** The first listed conversation with the selected id (`conversations.find`). */
  function SelectedConversation(convs: seq<ConversationView>, selected: Option<Id>): (r: Option<ConversationView>)
    ensures r.Some? ==> r.value in convs && selected.Some? && r.value.conv.id == selected.value
    ensures r.Some? ==> exists k :: FirstConversation(convs, k, selected.value) && r.value == convs[k]
    ensures r.None? ==> selected.None? || forall i :: 0 <= i < |convs| ==> convs[i].conv.id != selected.value
  {
    if selected.None? then None
    else
      var k := FindConversation(convs, selected.value);
      if k == -1 then None else Some(convs[k])
  }

  /** The recipient of a reply: the participant on the other side from the user. */
  function RecipientFor(c: Conversation, u: Id): (r: Id)
    ensures IsParticipant(c, r)
    ensures c.pacUserId == u ==> r == c.influencerUserId
    ensures c.pacUserId != u ==> r == c.pacUserId
    ensures IsParticipant(c, u) && c.pacUserId != c.influencerUserId ==> r != u
  {
    if c.pacUserId == u then c.influencerUserId else c.pacUserId
  }

  /** What a send handler did: nothing, or called `sendMessage` with this reply. */
  datatype SendAttempt = NotSent | Sent(reply: Result<Message>)

  /** `handleSendMessage`: a blank draft, no selected conversation or no user sends nothing;
      otherwise the untrimmed draft goes to the other participant on the conversation's
      campaign, and the draft is cleared only if the send succeeds. */
  function HandleSendMessage(st: Store, draft: string, convs: seq<ConversationView>, selected: Option<Id>,
                             user: Option<Id>, convId: Id, msgId: Id, now: int, lookupOk: bool, convOk: bool, msgOk: bool)
    : (r: (Store, string, SendAttempt))
    ensures IsBlank(draft) || SelectedConversation(convs, selected).None? || user.None? ==>
      r == (st, draft, NotSent)
    ensures r.2.Sent? <==> !IsBlank(draft) && SelectedConversation(convs, selected).Some? && user.Some?
    ensures r.2.Sent? ==>
      var c := SelectedConversation(convs, selected).value.conv;
      r.2.reply == SendMessage(st, user, RecipientFor(c, user.value), c.campaignId, draft, None,
                               convId, msgId, now, lookupOk, convOk, msgOk).1
      && r.0 == SendMessage(st, user, RecipientFor(c, user.value), c.campaignId, draft, None,
                            convId, msgId, now, lookupOk, convOk, msgOk).0
    ensures r.2.Sent? ==> (r.1 == "" <==> r.2.reply.Success? || draft == "")
    ensures r.2.Sent? && r.2.reply.Err? ==> r.1 == draft
    ensures r.2.Sent? && r.2.reply.Success? ==>
      r.2.reply.value.content == draft && r.2.reply.value.senderId == user.value
      && IsParticipant(SelectedConversation(convs, selected).value.conv, r.2.reply.value.recipientId)
  {
    var conv := SelectedConversation(convs, selected);
    TrimEmptyIffBlank(draft);
    if Trim(draft) == "" || conv.None? || user.None? then (st, draft, NotSent)
    else
      var c := conv.value.conv;
      var reply := SendMessage(st, user, RecipientFor(c, user.value), c.campaignId, draft, None,
                               convId, msgId, now, lookupOk, convOk, msgOk);
      (reply.0, if reply.1.Success? then "" else draft, Sent(reply.1))
  }

  /** A non-blank draft in a selected conversation, sent by a signed-in user and accepted by
      the store, ends up as the newest stored message, and the input is cleared. */
  lemma SendStoresDraft(st: Store, draft: string, convs: seq<ConversationView>, selected: Option<Id>,
                        user: Option<Id>, convId: Id, msgId: Id, now: int, lookupOk: bool, convOk: bool, msgOk: bool)
    requires !IsBlank(draft) && SelectedConversation(convs, selected).Some? && user.Some? && msgOk
    ensures var r := HandleSendMessage(st, draft, convs, selected, user, convId, msgId, now, lookupOk, convOk, msgOk);
      r.1 == "" && |r.0.messages| == |st.messages| + 1
      && r.0.messages[|st.messages|].content == draft && r.0.messages[|st.messages|].senderId == user.value
  {
  }

  /** `getOtherUserInfo`: the counterpart's name and avatar, with role-specific fallbacks,
      or "Unknown" when signed out. */
  function OtherUserInfo(v: ConversationView, user: Option<Id>): (r: (string, Option<string>))
    ensures user.None? ==> r == ("Unknown", None)
    ensures OnPacSide(v.conv, user) ==>
      r.0 == NameOr(v.influencerProfile, "Unknown Influencer")
      && r.1 == (if v.influencerProfile.Some? then v.influencerProfile.value.avatarUrl else None)
    ensures user.Some? && !OnPacSide(v.conv, user) ==>
      r.0 == NameOr(v.pacProfile, "Unknown PAC Admin")
      && r.1 == (if v.pacProfile.Some? then v.pacProfile.value.avatarUrl else None)
  {
    if user.None? then ("Unknown", None)
    else if v.conv.pacUserId == user.value then
      (NameOr(v.influencerProfile, "Unknown Influencer"),
       if v.influencerProfile.Some? then v.influencerProfile.value.avatarUrl else None)
    else
      (NameOr(v.pacProfile, "Unknown PAC Admin"),
       if v.pacProfile.Some? then v.pacProfile.value.avatarUrl else None)
  }

  /** A bubble is drawn as the user's own exactly when the user sent it. */
  predicate IsOwn(m: Message, user: Option<Id>)
  {
    user.Some? && m.senderId == user.value
  }

  /** Every message a signed-in user sends through the page is their own. */
  lemma SentMessagesAreOwn(st: Store, draft: string, convs: seq<ConversationView>, selected: Option<Id>,
                           user: Option<Id>, convId: Id, msgId: Id, now: int, lookupOk: bool, convOk: bool, msgOk: bool)
    ensures var r := HandleSendMessage(st, draft, convs, selected, user, convId, msgId, now, lookupOk, convOk, msgOk);
      r.2.Sent? && r.2.reply.Success? ==> IsOwn(r.2.reply.value, user)
  {
  }
}

=== FILE: messaging_modal.dfy ===
/** The per-campaign messaging dialog: finding an existing conversation with the recipient,
    sending from the dialog, and when the history pane shows that conversation. */
module MessagingModal {
  import opened Wrappers
  import opened Seqs
  import opened Text
  import opened Store
  import opened Messaging

  /** The recipient takes part in the conversation, on either side, about the campaign. */
  predicate WithRecipient(c: ConversationView, campaignId: Id, recipientId: Id)
  {
    c.conv.campaignId == campaignId
    && (c.conv.pacUserId == recipientId || c.conv.influencerUserId == recipientId)
  }

  /** Position k holds the first conversation about the campaign with the recipient. */
  predicate FirstWithRecipient(convs: seq<ConversationView>, k: int, campaignId: Id, recipientId: Id)
  {
    0 <= k < |convs| && WithRecipient(convs[k], campaignId, recipientId)
    && forall i :: 0 <= i < k ==> !WithRecipient(convs[i], campaignId, recipientId)
  }

  /** `existingConversation`: the first listed conversation about the campaign with the recipient. */
  function ExistingConversation(convs: seq<ConversationView>, campaignId: Id, recipientId: Id)
    : (r: Option<ConversationView>)
    ensures r.None? <==> forall i :: 0 <= i < |convs| ==> !WithRecipient(convs[i], campaignId, recipientId)
    ensures r.Some? ==> exists k :: FirstWithRecipient(convs, k, campaignId, recipientId) && convs[k] == r.value
  {
    var k := IndexWhere(convs, (c: ConversationView) => WithRecipient(c, campaignId, recipientId));
    if k == -1 then None else Some(convs[k])
  }

  /** The dialog's own state: the draft, the subject field and the hook's selected conversation. */
  datatype ModalState = ModalState(message: string, subject: string, selected: Option<Id>)

  /** `handleSendMessage` of the dialog: a blank draft sends nothing; otherwise the untrimmed
      draft goes to the recipient. Success clears both fields and selects the conversation found
      before sending, if any; failure leaves the dialog as it was. */
  function ModalSend(st: Store, convs: seq<ConversationView>, m: ModalState, user: Option<Id>,
                     recipientId: Id, campaignId: Id, convId: Id, msgId: Id, now: int,
                     lookupOk: bool, convOk: bool, msgOk: bool)
    : (r: (Store, ModalState, bool))
    ensures IsBlank(m.message) ==> r == (st, m, false)
    ensures !IsBlank(m.message) ==> r.2
    ensures !IsBlank(m.message) ==>
      r.0 == SendMessage(st, user, recipientId, campaignId, m.message, NonEmpty(m.subject),
                         convId, msgId, now, lookupOk, convOk, msgOk).0
    ensures r.2 && (user.None? || !msgOk) ==> r.1 == m
    ensures r.2 && user.Some? && msgOk ==>
      r.1.message == "" && r.1.subject == ""
      && r.1.selected == (var e := ExistingConversation(convs, campaignId, recipientId);
                          if e.Some? then Some(e.value.conv.id) else m.selected)
  {
    TrimEmptyIffBlank(m.message);
    if Trim(m.message) == "" then (st, m, false)
    else
      var reply := SendMessage(st, user, recipientId, campaignId, m.message, NonEmpty(m.subject),
                               convId, msgId, now, lookupOk, convOk, msgOk);
      if reply.1.Err? then (reply.0, m, true)
      else
        var e := ExistingConversation(convs, campaignId, recipientId);
        (reply.0, ModalState("", "", if e.Some? then Some(e.value.conv.id) else m.selected), true)
  }

  /** The history pane lists messages only when the existing conversation is the selected one. */
  predicate ShowHistory(convs: seq<ConversationView>, campaignId: Id, recipientId: Id, selected: Option<Id>)
  {
    var e := ExistingConversation(convs, campaignId, recipientId);
    e.Some? && selected == Some(e.value.conv.id)
  }

  /** After a successful send, the history pane shows the conversation exactly when one existed. */
  lemma SuccessfulSendShowsHistory(st: Store, convs: seq<ConversationView>, m: ModalState, user: Option<Id>,
                                   recipientId: Id, campaignId: Id, convId: Id, msgId: Id, now: int,
                                   lookupOk: bool, convOk: bool, msgOk: bool)
    requires !IsBlank(m.message) && user.Some? && msgOk
    ensures var r := ModalSend(st, convs, m, user, recipientId, campaignId, convId, msgId, now, lookupOk, convOk, msgOk);
      ExistingConversation(convs, campaignId, recipientId).Some? ==> ShowHistory(convs, campaignId, recipientId, r.1.selected)
  {
  }
}

=== FILE: overview.dfy ===
/** The compliance overview cards: when placeholders show, how the rate card is coloured and
    described, the flagged card's colour and the low-compliance alert. */
module Overview {
  import opened Wrappers
  import opened Seqs
  import opened Text
  import opened Store
  import opened Compliance
  import opened Palette

  /** The placeholder grid shows while loading or before any stats exist. */
  predicate ShowSkeleton(stats: Option<ComplianceStats>, loading: bool)
  {
    loading || stats.None?
  }

  /** The cards render only once loading is over and stats exist. */
  lemma CardsNeedStats(stats: Option<ComplianceStats>, loading: bool)
    ensures !ShowSkeleton(stats, loading) <==> !loading && stats.Some?
  {
  }

  /** The rate card's colour: green from 90, yellow from 70, red below. */
  function RateColour(rate: nat): (c: Colour)
    ensures c == Green <==> rate >= 90
    ensures c == Yellow <==> 70 <= rate < 90
    ensures c == Red <==> rate < 70
  {
    if rate >= 90 then Green else if rate >= 70 then Yellow else Red
  }

  /** The flagged card is red when anything is flagged, green otherwise. */
  function FlaggedColour(flagged: nat): (c: Colour)
    ensures c == Red <==> flagged > 0
    ensures c == Green <==> flagged == 0
  {
    if flagged > 0 then Red else Green
  }

  /** The "Compliance Alert" box shows when the rate is below 90. */
  predicate ShowAlert(rate: nat)
  {
    rate < 90
  }

  /** The alert shows exactly when the rate card is not green. */
  lemma AlertIffNotGreen(rate: nat)
    ensures ShowAlert(rate) <==> RateColour(rate) != Green
  {
  }

  /** The rate card's value, `${rate}%`. */
  function RateValue(s: ComplianceStats): (t: string)
    ensures |t| >= 2 && t[|t| - 1] == '%'
    ensures forall i :: 0 <= i < |t| - 1 ==> IsDigit(t[i])
    ensures DecimalValue(t[..|t| - 1]) == s.complianceRate
    ensures |t| > 2 ==> t[0] != '0'
  {
    var digits := NatToString(s.complianceRate);
    NatToStringRoundTrip(s.complianceRate);
    assert (digits + "%")[..|digits|] == digits;
    digits + "%"
  }

  /** The rate card's description, `${compliant} of ${total} compliant`. */
  function RateDescription(s: ComplianceStats): (t: string)
    ensures exists k, m :: DescriptionReads(t, k, m, s)
  {
    var c := NatToString(s.compliant);
    var n := NatToString(s.totalSubmissions);
    NatToStringRoundTrip(s.compliant);
    NatToStringRoundTrip(s.totalSubmissions);
    DescriptionParts(c, n);
    var t := c + " of " + n + " compliant";
    assert DescriptionReads(t, |c|, |c| + 4 + |n|, s);
    t
  }

  /** Where the pieces of `c of n compliant` sit in the joined string. */
  lemma DescriptionParts(c: string, n: string)
    ensures var t := c + " of " + n + " compliant";
      && |t| == |c| + |n| + 14
      && t[..|c|] == c
      && t[|c|..|c| + 4] == " of "
      && t[|c| + 4..|c| + 4 + |n|] == n
      && t[|c| + 4 + |n|..] == " compliant"
      && (forall i :: 0 <= i < |c| ==> t[i] == c[i])
      && (forall j :: 0 <= j < |n| ==> t[|c| + 4 + j] == n[j])
  {
    var t := c + " of " + n + " compliant";
    assert t == c + (" of " + (n + " compliant"));
  }

  /** Reading the description back: the digits before k give the compliant count, then
      " of ", then the digits up to m give the total, then exactly " compliant"; neither
      number has a leading zero. */
  predicate DescriptionReads(t: string, k: int, m: int, s: ComplianceStats)
  {
    1 <= k && k + 4 < m <= |t|
    && (forall i :: 0 <= i < k ==> IsDigit(t[i]))
    && DecimalValue(t[..k]) == s.compliant
    && (k > 1 ==> t[0] != '0')
    && t[k..k + 4] == " of "
    && (forall i :: k + 4 <= i < m ==> IsDigit(t[i]))
    && DecimalValue(t[k + 4..m]) == s.totalSubmissions
    && (m > k + 5 ==> t[k + 4] != '0')
    && t[m..] == " compliant"
  }

  /** With no submissions the rate is zero, so the card is red and the alert shows. */
  lemma EmptyDashboardAlerts()
    ensures var s := ComputeStats([]);
      RateColour(s.complianceRate) == Red && ShowAlert(s.complianceRate)
  {
  }

  /** When every owned submission is compliant (and there is one), the card is green and no
      alert shows. */
  lemma AllCompliantIsGreen(st: Store, user: Id)
    requires |OwnedSubmissions(st, user)| > 0
    requires forall i :: 0 <= i < |OwnedSubmissions(st, user)| ==> IsCompliant(OwnedSubmissions(st, user)[i])
    ensures var s := ComputeStats(OwnedSubmissions(st, user));
      RateColour(s.complianceRate) == Green && !ShowAlert(s.complianceRate)
  {
    var subs := OwnedSubmissions(st, user);
    CountAll(subs);
  }

  /** Counting a predicate every element satisfies gives the length. */
  lemma {:induction false} CountAll(subs: seq<Submission>)
    requires forall i :: 0 <= i < |subs| ==> IsCompliant(subs[i])
    ensures Count(subs, IsCompliant) == |subs|
  {
    if |subs| > 0 {
      CountAll(subs[1..]);
    }
  }
}

=== FILE: palette.dfy ===
/** The colour families the dashboard draws icons, badges and cards in. */
module Palette {
  datatype Colour = Red | Yellow | Green | Blue | Gray
}

=== FILE: payments.dfy ===
/** `usePayments`: the payments list, its summary, and the status update. Amounts are
    integers (cents); the total balance is a fixed placeholder. */
module Payments {
  import opened Wrappers
  import opened Seqs
  import opened Store

  const Completed: string := "completed"
  /** The placeholder balance the summary always reports. */
  const MockBalance: int := 50000

  datatype PaymentSummary = PaymentSummary(
    totalBalance: int,
    reservedFunds: int,
    completedPayments: int,
    pendingPayments: nat)

  /** The hook's state: the list and the summary (null until loaded, or when signed out). */
  datatype PaymentsState = PaymentsState(payments: seq<Payment>, summary: Option<PaymentSummary>)

  function Amount(p: Payment): int { p.amount }
  predicate IsPendingPayment(p: Payment) { p.status == Pending }
  predicate IsCompletedPayment(p: Payment) { p.status == Completed }

  /** The amounts of the payments whose status satisfies `keep`, added up. */
  function AmountWhere(ps: seq<Payment>, keep: Payment -> bool): int
  {
    Sum(Filter(ps, keep), Amount)
  }

  /** The summary of a non-empty list: funds reserved by pending payments, the total paid out,
      and the number of pending payments; an empty list gives all zeros. */
  function Summarise(ps: seq<Payment>): (r: PaymentSummary)
    ensures r.totalBalance == MockBalance
    ensures |ps| == 0 ==> r == PaymentSummary(MockBalance, 0, 0, 0)
    ensures r.reservedFunds == SumWhere(ps, IsPendingPayment, Amount)
    ensures r.completedPayments == SumWhere(ps, IsCompletedPayment, Amount)
    ensures r.pendingPayments == Count(ps, IsPendingPayment) <= |ps|
    ensures (forall i :: 0 <= i < |ps| ==> ps[i].amount >= 0) ==> r.reservedFunds >= 0 && r.completedPayments >= 0
  {
    if |ps| == 0 then PaymentSummary(MockBalance, 0, 0, 0)
    else
      var pending := Filter(ps, IsPendingPayment);
      CountIsFilterLength(ps, IsPendingPayment);
      NonNegativeSum(Filter(ps, IsPendingPayment));
      NonNegativeSum(Filter(ps, IsCompletedPayment));
      SumFilter(ps, IsPendingPayment, Amount);
      SumFilter(ps, IsCompletedPayment, Amount);
      PaymentSummary(MockBalance, Sum(pending, Amount), AmountWhere(ps, IsCompletedPayment), |pending|)
  }

  /** With nothing pending, no funds are reserved and the pending count is zero. */
  lemma NothingPendingReservesNothing(ps: seq<Payment>)
    requires forall i :: 0 <= i < |ps| ==> !IsPendingPayment(ps[i])
    ensures Summarise(ps).reservedFunds == 0 && Summarise(ps).pendingPayments == 0
  {
    CountNone(ps, IsPendingPayment);
    CountIsFilterLength(ps, IsPendingPayment);
  }

  /** Non-negative amounts add up to a non-negative total. */
  lemma {:induction false} NonNegativeSum(ps: seq<Payment>)
    ensures (forall i :: 0 <= i < |ps| ==> ps[i].amount >= 0) ==> Sum(ps, Amount) >= 0
  {
    if |ps| > 0 {
      NonNegativeSum(ps[1..]);
      if forall i :: 0 <= i < |ps| ==> ps[i].amount >= 0 {
        assert forall i :: 0 <= i < |ps[1..]| ==> ps[1..][i].amount >= 0 by {
          forall i | 0 <= i < |ps[1..]| ensures ps[1..][i].amount >= 0 {
            assert ps[1..][i] == ps[i + 1];
          }
        }
      }
    }
  }

  /** Summaries of two non-empty lists add up to the summary of their concatenation. */
  lemma SummaryAppend(a: seq<Payment>, b: seq<Payment>)
    requires |a| > 0 && |b| > 0
    ensures Summarise(a + b).reservedFunds == Summarise(a).reservedFunds + Summarise(b).reservedFunds
    ensures Summarise(a + b).completedPayments == Summarise(a).completedPayments + Summarise(b).completedPayments
    ensures Summarise(a + b).pendingPayments == Summarise(a).pendingPayments + Summarise(b).pendingPayments
  {
    FilterAppend(a, b, IsPendingPayment);
    FilterAppend(a, b, IsCompletedPayment);
    SumAppend(Filter(a, IsPendingPayment), Filter(b, IsPendingPayment), Amount);
    SumAppend(Filter(a, IsCompletedPayment), Filter(b, IsCompletedPayment), Amount);
  }

  /** The summary does not depend on the order the list is shown in. */
  lemma SummaryIgnoresOrder(a: seq<Payment>, b: seq<Payment>)
    requires multiset(a) == multiset(b)
    ensures Summarise(a) == Summarise(b)
  {
    assert |a| == |multiset(a)| == |multiset(b)| == |b|;
    FilterPermutation(a, b, IsPendingPayment);
    FilterPermutation(a, b, IsCompletedPayment);
    SumPermutation(Filter(a, IsPendingPayment), Filter(b, IsPendingPayment), Amount);
    SumPermutation(Filter(a, IsCompletedPayment), Filter(b, IsCompletedPayment), Amount);
    CountPermutation(a, b, IsPendingPayment);
  }

  /** `fetchPayments`: signed out clears list and summary; a store error keeps the state;
      otherwise every visible payment newest first, with the summary of the whole table. */
  function FetchPayments(prev: PaymentsState, st: Store, user: Option<Id>, ok: bool): (r: PaymentsState)
    ensures user.None? ==> r == PaymentsState([], None)
    ensures user.Some? && !ok ==> r == prev
    ensures user.Some? && ok ==> multiset(r.payments) == multiset(st.payments)
    ensures user.Some? && ok ==> forall i, j :: 0 <= i < j < |r.payments| ==> r.payments[i].createdAt >= r.payments[j].createdAt
    ensures user.Some? && ok ==> r.summary == Some(Summarise(st.payments))
  {
    if user.None? then PaymentsState([], None)
    else if !ok then prev
    else
      var key := (p: Payment) => p.createdAt;
      var list := SortDesc(st.payments, key);
      assert forall i, j :: 0 <= i < j < |list| ==> key(list[i]) >= key(list[j]);
      SummaryIgnoresOrder(list, st.payments);
      PaymentsState(list, Some(Summarise(list)))
  }

  /** The number of rows carrying `id`. */
  function PaymentsWithId(ps: seq<Payment>, id: Id): nat
  {
    Count(ps, (p: Payment) => p.id == id)
  }

  /** `updatePaymentStatus`: signed out is an error; the update with `.single()` succeeds only
      when exactly one row has the id, which then gets the new status in the store and in the
      list (the summary is not recomputed). Failures change nothing. */
  function UpdatePaymentStatus(st: Store, s: PaymentsState, user: Option<Id>, id: Id, status: string, ok: bool)
    : (r: (Store, PaymentsState, Outcome))
    ensures user.None? ==> r == (st, s, Fail(NotAuthenticated))
    ensures r.2.Pass? <==> user.Some? && ok && PaymentsWithId(st.payments, id) == 1
    ensures user.Some? && r.2.Fail? ==> r == (st, s, Fail(StoreRejected))
    ensures r.0.(payments := st.payments) == st && |r.0.payments| == |st.payments|
    ensures r.1.summary == s.summary && |r.1.payments| == |s.payments|
    ensures forall i :: 0 <= i < |st.payments| ==>
      r.0.payments[i] == if r.2.Pass? && st.payments[i].id == id then st.payments[i].(status := status) else st.payments[i]
    ensures forall i :: 0 <= i < |s.payments| && (r.2.Fail? || s.payments[i].id != id) ==> r.1.payments[i] == s.payments[i]
    ensures r.2.Pass? ==> forall i :: 0 <= i < |s.payments| && s.payments[i].id == id ==>
      r.1.payments[i] in r.0.payments && r.1.payments[i].id == id && r.1.payments[i].status == status
  {
    if user.None? then (st, s, Fail(NotAuthenticated))
    else if !(ok && PaymentsWithId(st.payments, id) == 1) then (st, s, Fail(StoreRejected))
    else
      var hit := (p: Payment) => p.id == id;
      var rows := MapIf(st.payments, hit, (p: Payment) => p.(status := status));
      var k := IndexWhere(st.payments, hit);
      if k == -1 then
        CountNone(st.payments, hit);
        assert false;
        (st, s, Fail(StoreRejected))
      else
        var data := rows[k];
        (st.(payments := rows), s.(payments := MapIf(s.payments, hit, (p: Payment) => data)), Pass)
  }
}

=== FILE: review_queue.dfy ===
/** The compliance review queue panel: the review dialog's local state, its approve and
    request-revision handlers wired to the compliance hook, and the status and priority styling. */
module ReviewQueue {
  import opened Wrappers
  import opened Text
  import opened Store
  import opened Compliance
  import opened Palette

  /** The panel's local state: the item under review, the notes being typed, and whether an
      action is in flight. */
  datatype QueueUi = QueueUi(selected: Option<ComplianceItem>, notes: string, actionLoading: bool)

  /** Opening the review dialog selects the item and clears the notes. */
  function OpenReview(ui: QueueUi, item: ComplianceItem): (r: QueueUi)
    ensures r.selected == Some(item) && r.notes == "" && r.actionLoading == ui.actionLoading
  {
    ui.(selected := Some(item), notes := "")
  }

  /** A successful action closes the review and clears the notes; a failed one keeps both.
      Either way the action is no longer in flight. */
  function AfterAction(ui: QueueUi, outcome: Outcome): (r: QueueUi)
    ensures !r.actionLoading
    ensures outcome.Pass? ==> r.selected.None? && r.notes == ""
    ensures outcome.Fail? ==> r.selected == ui.selected && r.notes == ui.notes
  {
    if outcome.Pass? then QueueUi(None, "", false) else ui.(actionLoading := false)
  }

  /** `handleApprove`: with no item selected nothing happens; otherwise the hook approves the
      selected item with the typed notes (absent when empty). The flag says whether the hook ran. */
  function HandleApprove(ui: QueueUi, st: Store, view: ComplianceView, user: Option<Id>, now: int,
                         ok: bool, statsOk: bool, pendingOk: bool): (r: (QueueUi, Store, ComplianceView, bool))
    ensures ui.selected.None? ==> r == (ui, st, view, false)
    ensures ui.selected.Some? ==> r.3
    ensures ui.selected.Some? ==>
      (r.1, r.2) == (var a := ApproveSubmission(st, view, user, ui.selected.value.id, NonEmpty(ui.notes),
                                                now, ok, statsOk, pendingOk); (a.0, a.1))
    ensures ui.selected.Some? && ok ==> r.0 == QueueUi(None, "", false)
    ensures ui.selected.Some? && !ok ==> r.0 == ui.(actionLoading := false) && r.1 == st && r.2 == view
  {
    if ui.selected.None? then (ui, st, view, false)
    else
      var a := ApproveSubmission(st, view, user, ui.selected.value.id, NonEmpty(ui.notes),
                                 now, ok, statsOk, pendingOk);
      (AfterAction(ui, a.2), a.0, a.1, true)
  }

  /** `handleRequestRevision`: with no item selected or blank notes nothing reaches the hook;
      otherwise the hook records the revision with the notes exactly as typed. */
  function HandleRequestRevision(ui: QueueUi, st: Store, view: ComplianceView, user: Option<Id>, now: int,
                                 ok: bool, statsOk: bool, pendingOk: bool): (r: (QueueUi, Store, ComplianceView, bool))
    ensures ui.selected.None? || IsBlank(ui.notes) ==> r == (ui, st, view, false)
    ensures r.3 <==> ui.selected.Some? && !IsBlank(ui.notes)
    ensures r.3 ==>
      (r.1, r.2) == (var a := RequestRevision(st, view, user, ui.selected.value.id, ui.notes,
                                              now, ok, statsOk, pendingOk); (a.0, a.1))
    ensures r.3 && ok ==> r.0 == QueueUi(None, "", false)
    ensures r.3 && !ok ==> r.0 == ui.(actionLoading := false) && r.1 == st && r.2 == view
  {
    TrimEmptyIffBlank(ui.notes);
    if ui.selected.None? || Trim(ui.notes) == "" then (ui, st, view, false)
    else
      var a := RequestRevision(st, view, user, ui.selected.value.id, ui.notes, now, ok, statsOk, pendingOk);
      (AfterAction(ui, a.2), a.0, a.1, true)
  }

  /** The request-revision button is disabled while an action runs or the notes are blank. */
  predicate RevisionDisabled(ui: QueueUi)
  {
    ui.actionLoading || Trim(ui.notes) == ""
  }

  /** Whenever the request-revision button is enabled in an open review, pressing it reaches the
      hook: the button's disabled test and the handler's guard agree. */
  lemma EnabledRevisionReachesHook(ui: QueueUi, st: Store, view: ComplianceView, user: Option<Id>, now: int,
                                   ok: bool, statsOk: bool, pendingOk: bool)
    requires ui.selected.Some? && !RevisionDisabled(ui)
    ensures HandleRequestRevision(ui, st, view, user, now, ok, statsOk, pendingOk).3
  {
    TrimEmptyIffBlank(ui.notes);
  }

  datatype StatusIcon = CheckIcon | ClockIcon | AlertIcon | CrossIcon

  /** `getStatusIcon`. */
  function StatusIconFor(status: string): (r: (StatusIcon, Colour))
    ensures status == "compliant" <==> r == (CheckIcon, Green)
    ensures status == Pending <==> r == (ClockIcon, Blue)
    ensures status == "flagged" || status == RevisionRequested <==> r == (AlertIcon, Red)
    ensures r == (CrossIcon, Gray) <==>
      status != "compliant" && status != Pending && status != "flagged" && status != RevisionRequested
  {
    if status == "compliant" then (CheckIcon, Green)
    else if status == Pending then (ClockIcon, Blue)
    else if status == "flagged" || status == RevisionRequested then (AlertIcon, Red)
    else (CrossIcon, Gray)
  }

  datatype BadgeVariant = Default | Secondary | Destructive | Outline

  /** The badge variant; any status without an entry falls back to the outline style. */
  function BadgeVariantFor(status: string): (r: BadgeVariant)
    ensures r == Default <==> status == "compliant"
    ensures r == Secondary <==> status == Pending
    ensures r == Destructive <==> status == "flagged" || status == RevisionRequested
    ensures r == Outline <==> status != "compliant" && status != Pending && status != "flagged" && status != RevisionRequested
  {
    if status == "compliant" then Default
    else if status == Pending then Secondary
    else if status == "flagged" || status == RevisionRequested then Destructive
    else Outline
  }

  /** A destructive badge always carries the red alert icon. */
  lemma DestructiveBadgeHasAlertIcon(status: string)
    ensures BadgeVariantFor(status) == Destructive <==> StatusIconFor(status) == (AlertIcon, Red)
  {
  }

  /** The badge text as written: the first underscore becomes a space, then upper case. */
  function BadgeTextAsWritten(status: string): (r: string)
    ensures |r| == |status|
    ensures forall i :: 0 <= i < |r| ==> !IsLowerLetter(r[i])
    ensures forall i :: 0 <= i < |r| ==>
      r[i] == (if status[i] == '_' && (forall k :: 0 <= k < i ==> status[k] != '_') then ' ' else Upper(status[i]))
  {
    ToUpper(ReplaceFirst(status, '_', ' '))
  }

  /** A status with two underscores keeps its second one on the badge. */
  lemma BadgeTextKeepsSecondUnderscore()
    ensures BadgeTextAsWritten("a_b_c") == "A B_C"
  {
    var t := ReplaceFirst("a_b_c", '_', ' ');
    assert t[0] == 'a' && t[1] == ' ' && t[2] == 'b' && t[3] == '_' && t[4] == 'c';
    assert t == "a b_c";
  }

  /** The badge text with every underscore a space, as the audit trail does for its labels. */
  function BadgeText(status: string): (r: string)
    ensures |r| == |status|
    ensures forall i :: 0 <= i < |r| ==> r[i] != '_' && !IsLowerLetter(r[i])
    ensures forall i :: 0 <= i < |r| ==> r[i] == (if status[i] == '_' then ' ' else Upper(status[i]))
  {
    ToUpper(ReplaceAll(status, '_', ' '))
  }

  /** On every status with at most one underscore, which covers every status the store holds,
      the two texts agree. */
  lemma BadgeTextsAgree(status: string)
    requires forall i, j :: 0 <= i < j < |status| && status[i] == '_' ==> status[j] != '_'
    ensures BadgeTextAsWritten(status) == BadgeText(status)
  {
    var a := BadgeTextAsWritten(status);
    var b := BadgeText(status);
    forall i | 0 <= i < |status| ensures a[i] == b[i] {
      if status[i] == '_' {
        assert forall k :: 0 <= k < i ==> status[k] != '_';
      }
    }
  }

  /** `getStatusBadge`: the badge drawn for a status, its variant and its text as written. */
  function StatusBadge(status: string): (r: (BadgeVariant, string))
    ensures r.0 == BadgeVariantFor(status)
    ensures |r.1| == |status|
    ensures forall i :: 0 <= i < |r.1| ==>
      r.1[i] == (if status[i] == '_' && (forall k :: 0 <= k < i ==> status[k] != '_') then ' ' else Upper(status[i]))
  {
    (BadgeVariantFor(status), BadgeTextAsWritten(status))
  }

  /** A submission sent back for revision wears a destructive "REVISION REQUESTED" badge. */
  lemma RevisionBadge()
    ensures StatusBadge(RevisionRequested) == (Destructive, "REVISION REQUESTED")
  {
    RevisionBadgeText();
  }

  /** The as-written text of the revision status: its one underscore becomes a space. */
  lemma RevisionBadgeText()
    ensures BadgeTextAsWritten(RevisionRequested) == "REVISION REQUESTED"
  {
    RevisionSpaced();
    UpperRevision();
  }

  lemma RevisionSpaced()
    ensures ReplaceFirst(RevisionRequested, '_', ' ') == "revision" + [' '] + "requested"
  {
    assert RevisionRequested == "revision" + ['_'] + "requested";
    ReplaceFirstAt("revision", "requested", '_', ' ');
  }

  lemma UpperRevision()
    ensures ToUpper("revision" + [' '] + "requested") == "REVISION REQUESTED"
  {
  }

  /** `getPriorityColor`. */
  function PriorityColor(priority: string): (r: Colour)
    ensures priority == "high" <==> r == Red
    ensures priority == "medium" <==> r == Yellow
    ensures priority == "low" <==> r == Green
    ensures r == Gray <==> priority != "high" && priority != "medium" && priority != "low"
  {
    if priority == "high" then Red
    else if priority == "medium" then Yellow
    else if priority == "low" then Green
    else Gray
  }

  /** Every queued item is drawn red when a revision was requested and yellow otherwise;
      no queued item is ever green or gray. */
  lemma QueuedPriorityColours(st: Store, user: Id)
    ensures var q := PendingQueue(st, user);
      forall i :: 0 <= i < |q| ==>
        (PriorityColor(q[i].priority) == Red <==> q[i].status == RevisionRequested)
        && (PriorityColor(q[i].priority) == Red || PriorityColor(q[i].priority) == Yellow)
  {
  }
}

=== FILE: seqs.dfy ===
/** Generic sequence operations standing in for `Array.prototype.filter`, `reduce`
    and the store's `order(...)` / `limit(...)` clauses. */
module Seqs {

  /** `s.filter(p)`: the elements satisfying `p`, in their original order. */
  function Filter<T>(s: seq<T>, p: T -> bool): (r: seq<T>)
    ensures |r| <= |s|
    ensures forall i :: 0 <= i < |r| ==> p(r[i]) && r[i] in s
    ensures forall i :: 0 <= i < |s| && p(s[i]) ==> s[i] in r
    ensures multiset(r) <= multiset(s)
  {
    if |s| == 0 then []
    else
      assert s == [s[0]] + s[1..];
      if p(s[0]) then [s[0]] + Filter(s[1..], p)
      else Filter(s[1..], p)
  }

  /** `a` is `b` with some elements dropped: order is preserved. */
  predicate SubsequenceOf<T(==)>(a: seq<T>, b: seq<T>)
    decreases |b|
  {
    |a| == 0 || (|b| > 0 && ((a[0] == b[0] && SubsequenceOf(a[1..], b[1..])) || SubsequenceOf(a, b[1..])))
  }

  /** Filtering drops elements but never reorders the survivors. */
  lemma {:induction false} FilterIsSubsequence<T>(s: seq<T>, p: T -> bool)
    ensures SubsequenceOf(Filter(s, p), s)
  {
    if |s| > 0 {
      FilterIsSubsequence(s[1..], p);
      var r := Filter(s, p);
      if p(s[0]) {
        assert r[1..] == Filter(s[1..], p);
      }
    }
  }

  /** A filter that keeps every element is the identity. */
  lemma {:induction false} FilterKeepsAll<T>(s: seq<T>, p: T -> bool)
    requires forall i :: 0 <= i < |s| ==> p(s[i])
    ensures Filter(s, p) == s
  {
    if |s| > 0 {
      FilterKeepsAll(s[1..], p);
      assert s == [s[0]] + s[1..];
    }
  }

  /** Each element survives a filter as often as it occurs when it satisfies `p`, and not at all otherwise. */
  lemma {:induction false} FilterMultiset<T>(s: seq<T>, p: T -> bool)
    ensures forall x :: multiset(Filter(s, p))[x] == if p(x) then multiset(s)[x] else 0
  {
    if |s| > 0 {
      FilterMultiset(s[1..], p);
      assert s == [s[0]] + s[1..];
    }
  }

  /** A filter and its complement split the elements between them. */
  lemma FilterPartition<T>(s: seq<T>, p: T -> bool, q: T -> bool)
    requires forall i :: 0 <= i < |s| ==> (q(s[i]) <==> !p(s[i]))
    ensures multiset(Filter(s, p)) + multiset(Filter(s, q)) == multiset(s)
  {
    FilterMultiset(s, p);
    FilterMultiset(s, q);
    forall x ensures multiset(Filter(s, p))[x] + multiset(Filter(s, q))[x] == multiset(s)[x] {
      if x in s {
        var i :| 0 <= i < |s| && s[i] == x;
      }
    }
  }

  /** `s.filter(p).length`. */
  function Count<T>(s: seq<T>, p: T -> bool): nat
  {
    if |s| == 0 then 0
    else (if p(s[0]) then 1 else 0) + Count(s[1..], p)
  }

  lemma {:induction false} CountIsFilterLength<T>(s: seq<T>, p: T -> bool)
    ensures Count(s, p) == |Filter(s, p)|
  {
    if |s| > 0 {
      CountIsFilterLength(s[1..], p);
    }
  }

  /** Counting three pairwise-disjoint predicates never exceeds the length. */
  lemma {:induction false} CountDisjoint3<T>(s: seq<T>, p: T -> bool, q: T -> bool, u: T -> bool)
    requires forall i :: 0 <= i < |s| ==> !(p(s[i]) && q(s[i])) && !(p(s[i]) && u(s[i])) && !(q(s[i]) && u(s[i]))
    ensures Count(s, p) + Count(s, q) + Count(s, u) <= |s|
  {
    if |s| > 0 {
      CountDisjoint3(s[1..], p, q, u);
    }
  }

  lemma {:induction false} CountNone<T>(s: seq<T>, p: T -> bool)
    requires forall i :: 0 <= i < |s| ==> !p(s[i])
    ensures Count(s, p) == 0
  {
    if |s| > 0 {
      CountNone(s[1..], p);
    }
  }

  /** The index of the first element satisfying `p`, or -1 when there is none. */
  function IndexWhere<T>(s: seq<T>, p: T -> bool): (k: int)
    ensures -1 <= k < |s|
    ensures k == -1 <==> forall i :: 0 <= i < |s| ==> !p(s[i])
    ensures k >= 0 ==> p(s[k]) && forall i :: 0 <= i < k ==> !p(s[i])
  {
    if |s| == 0 then -1
    else if p(s[0]) then 0
    else
      var k := IndexWhere(s[1..], p);
      if k == -1 then -1 else k + 1
  }

  /** Counting the elements in either of two disjoint classes adds the two counts. */
  lemma {:induction false} CountUnion<T>(s: seq<T>, p: T -> bool, q: T -> bool, either: T -> bool)
    requires forall i :: 0 <= i < |s| ==> !(p(s[i]) && q(s[i]))
    requires forall i :: 0 <= i < |s| ==> (either(s[i]) <==> p(s[i]) || q(s[i]))
    ensures Count(s, either) == Count(s, p) + Count(s, q)
  {
    if |s| > 0 {
      CountUnion(s[1..], p, q, either);
    }
  }

  /** Some element satisfies `p` exactly when the count is positive. */
  lemma {:induction false} CountPositive<T>(s: seq<T>, p: T -> bool)
    ensures Count(s, p) > 0 <==> exists i :: 0 <= i < |s| && p(s[i])
  {
    if |s| > 0 {
      CountPositive(s[1..], p);
      if !p(s[0]) && exists i :: 0 <= i < |s| && p(s[i]) {
        var i :| 0 <= i < |s| && p(s[i]);
        assert s[1..][i - 1] == s[i];
      }
    }
  }

  lemma {:induction false} CountAppend<T>(a: seq<T>, b: seq<T>, p: T -> bool)
    ensures Count(a + b, p) == Count(a, p) + Count(b, p)
  {
    if |a| == 0 {
      assert a + b == b;
    } else {
      assert (a + b)[1..] == a[1..] + b;
      CountAppend(a[1..], b, p);
    }
  }

  /** Sum of `f` over the elements (`reduce((acc, x) => acc + f(x), 0)`). */
  function Sum<T>(s: seq<T>, f: T -> int): int
  {
    if |s| == 0 then 0 else f(s[0]) + Sum(s[1..], f)
  }

  lemma {:induction false} SumAppend<T>(a: seq<T>, b: seq<T>, f: T -> int)
    ensures Sum(a + b, f) == Sum(a, f) + Sum(b, f)
  {
    if |a| == 0 {
      assert a + b == b;
    } else {
      assert (a + b)[1..] == a[1..] + b;
      SumAppend(a[1..], b, f);
    }
  }

  /** The terms `f(x)` of the elements satisfying `keep`, added up in one pass. */
  function SumWhere<T>(s: seq<T>, keep: T -> bool, f: T -> int): int
  {
    if |s| == 0 then 0 else (if keep(s[0]) then f(s[0]) else 0) + SumWhere(s[1..], keep, f)
  }

  /** Summing the filtered elements is summing the kept terms in place. */
  lemma {:induction false} SumFilter<T>(s: seq<T>, keep: T -> bool, f: T -> int)
    ensures Sum(Filter(s, keep), f) == SumWhere(s, keep, f)
  {
    if |s| > 0 {
      SumFilter(s[1..], keep, f);
    }
  }

  /** Filtering distributes over concatenation. */
  lemma {:induction false} FilterAppend<T>(a: seq<T>, b: seq<T>, p: T -> bool)
    ensures Filter(a + b, p) == Filter(a, p) + Filter(b, p)
  {
    if |a| == 0 {
      assert a + b == b;
    } else {
      assert (a + b)[1..] == a[1..] + b;
      FilterAppend(a[1..], b, p);
    }
  }

  /** A sum is the sum of all but the last term, plus the last term. */
  lemma SumSnoc<T>(s: seq<T>, f: T -> int)
    requires |s| > 0
    ensures Sum(s, f) == Sum(s[..|s| - 1], f) + f(s[|s| - 1])
  {
    assert s == s[..|s| - 1] + [s[|s| - 1]];
    SumAppend(s[..|s| - 1], [s[|s| - 1]], f);
  }

  /** Removing the element at k splits a sequence around it. */
  lemma SplitAt<T>(b: seq<T>, k: nat)
    requires k < |b|
    ensures b == b[..k] + [b[k]] + b[k+1..]
    ensures multiset(b) == multiset(b[..k] + b[k+1..]) + multiset{b[k]}
  {
    assert b == b[..k] + [b[k]] + b[k+1..];
  }

  /** The first element of `a` sits somewhere in a permutation `b`, and what remains of
      each is again a permutation of the other. */
  lemma PeelFirst<T>(a: seq<T>, b: seq<T>) returns (k: nat)
    requires |a| > 0 && multiset(a) == multiset(b)
    ensures k < |b| && b[k] == a[0]
    ensures b == b[..k] + [a[0]] + b[k+1..]
    ensures multiset(a[1..]) == multiset(b[..k] + b[k+1..])
  {
    var x := a[0];
    assert x in multiset(b);
    k :| 0 <= k < |b| && b[k] == x;
    SplitAt(b, k);
    assert a == [x] + a[1..];
    assert multiset(a) == multiset(a[1..]) + multiset{x};
    assert multiset(a[1..]) == multiset(a) - multiset{x};
    assert multiset(b[..k] + b[k+1..]) == multiset(b) - multiset{x};
  }

  /** Filtering keeps multiset equality. */
  lemma {:induction false} FilterPermutation<T>(a: seq<T>, b: seq<T>, keep: T -> bool)
    requires multiset(a) == multiset(b)
    ensures multiset(Filter(a, keep)) == multiset(Filter(b, keep))
    decreases |a|
  {
    if |a| == 0 {
      assert |b| == |multiset(b)| == 0;
    } else {
      var x := a[0];
      var k := PeelFirst(a, b);
      FilterPermutation(a[1..], b[..k] + b[k+1..], keep);
      FilterAppend([x], a[1..], keep);
      FilterAppend(b[..k], b[k+1..], keep);
      FilterAppend(b[..k] + [x], b[k+1..], keep);
      FilterAppend(b[..k], [x], keep);
    }
  }

  /** A sum does not depend on the order of its terms. */
  lemma {:induction false} SumPermutation<T>(a: seq<T>, b: seq<T>, f: T -> int)
    requires multiset(a) == multiset(b)
    ensures Sum(a, f) == Sum(b, f)
    decreases |a|
  {
    if |a| == 0 {
      assert |b| == |multiset(b)| == 0;
    } else {
      var x := a[0];
      var k := PeelFirst(a, b);
      SumPermutation(a[1..], b[..k] + b[k+1..], f);
      SumAppend(b[..k], b[k+1..], f);
      SumAppend(b[..k] + [x], b[k+1..], f);
      SumAppend(b[..k], [x], f);
    }
  }

  /** A count does not depend on the order of the elements. */
  lemma {:induction false} CountPermutation<T>(a: seq<T>, b: seq<T>, p: T -> bool)
    requires multiset(a) == multiset(b)
    ensures Count(a, p) == Count(b, p)
    decreases |a|
  {
    if |a| == 0 {
      assert |b| == |multiset(b)| == 0;
    } else {
      var x := a[0];
      var k := PeelFirst(a, b);
      CountPermutation(a[1..], b[..k] + b[k+1..], p);
      CountAppend(b[..k], b[k+1..], p);
      CountAppend(b[..k] + [x], b[k+1..], p);
      CountAppend(b[..k], [x], p);
    }
  }

  ghost predicate SortedDesc<T>(s: seq<T>, key: T -> int)
  {
    forall i, j :: 0 <= i < j < |s| ==> key(s[i]) >= key(s[j])
  }

  /** Inserts `x` before the first element whose key does not exceed its own. */
  function InsertDesc<T>(x: T, s: seq<T>, key: T -> int): (r: seq<T>)
    requires SortedDesc(s, key)
    ensures SortedDesc(r, key)
    ensures multiset(r) == multiset(s) + multiset{x}
    ensures |r| == |s| + 1
  {
    if |s| == 0 then [x]
    else if key(x) >= key(s[0]) then [x] + s
    else
      var rest := InsertDesc(x, s[1..], key);
      assert s == [s[0]] + s[1..];
      ConsSortedDesc(s[0], s[1..], rest, x, key);
      [s[0]] + rest
  }

  /** Putting `h` in front of a sorted permutation of `t + [x]` keeps it sorted
      when `h` heads the sorted `[h] + t` and outranks `x`. */
  lemma ConsSortedDesc<T>(h: T, t: seq<T>, rest: seq<T>, x: T, key: T -> int)
    requires SortedDesc([h] + t, key)
    requires key(x) < key(h)
    requires SortedDesc(rest, key)
    requires multiset(rest) == multiset(t) + multiset{x}
    ensures SortedDesc([h] + rest, key)
  {
    var r := [h] + rest;
    forall j | 1 <= j < |r|
      ensures key(h) >= key(r[j])
    {
      var y := rest[j - 1];
      assert r[j] == y;
      assert y in multiset(rest);
      if y != x {
        assert y in multiset(t);
        assert y in t;
        var k :| 0 <= k < |t| && t[k] == y;
        assert ([h] + t)[0] == h;
        assert ([h] + t)[k + 1] == y;
      }
    }
  }

  /** The store's `order(key, { ascending: false })`: a permutation ordered newest first. */
  function SortDesc<T>(s: seq<T>, key: T -> int): (r: seq<T>)
    ensures SortedDesc(r, key)
    ensures multiset(r) == multiset(s)
    ensures |r| == |s|
    ensures forall i :: 0 <= i < |r| ==> r[i] in s
    ensures forall i :: 0 <= i < |s| ==> s[i] in r
  {
    if |s| == 0 then []
    else
      assert s == [s[0]] + s[1..];
      var r := InsertDesc(s[0], SortDesc(s[1..], key), key);
      SameMembers(r, s);
      r
  }

  /** Sequences with the same multiset have the same members. */
  lemma SameMembers<T>(a: seq<T>, b: seq<T>)
    requires multiset(a) == multiset(b)
    ensures forall i :: 0 <= i < |a| ==> a[i] in b
    ensures forall i :: 0 <= i < |b| ==> b[i] in a
  {
    forall i | 0 <= i < |a| ensures a[i] in b {
      assert a[i] in multiset(a);
    }
    forall i | 0 <= i < |b| ensures b[i] in a {
      assert b[i] in multiset(b);
    }
  }

  /** The store's `limit(n)`. */
  function Take<T>(s: seq<T>, n: nat): (r: seq<T>)
    ensures |r| == if |s| <= n then |s| else n
    ensures r <= s
    ensures multiset(r) <= multiset(s)
  {
    if |s| <= n then s
    else
      assert s == s[..n] + s[n..];
      s[..n]
  }

  /** A prefix of a sorted sequence is sorted and draws from it. */
  lemma TakeSorted<T>(s: seq<T>, n: nat, key: T -> int)
    requires SortedDesc(s, key)
    ensures SortedDesc(Take(s, n), key)
    ensures forall i :: 0 <= i < |Take(s, n)| ==> Take(s, n)[i] in s
  {
    var r := Take(s, n);
    assert forall i :: 0 <= i < |r| ==> r[i] == s[i];
  }

  /** An element of a sorted sequence that the prefix leaves out ranks no higher than anything in it. */
  lemma TakeKeepsNewest<T>(s: seq<T>, n: nat, key: T -> int, x: T)
    requires SortedDesc(s, key)
    requires x in s && x !in Take(s, n)
    ensures forall i :: 0 <= i < |Take(s, n)| ==> key(x) <= key(Take(s, n)[i])
  {
    var r := Take(s, n);
    var j :| 0 <= j < |s| && s[j] == x;
    forall i | 0 <= i < |r| ensures key(x) <= key(r[i]) {
      assert r[i] == s[i];
      assert j >= |r|;
    }
  }

  /** `s.map(x => hit(x) ? f(x) : x)`: rewrites the hits in place, leaves everything else. */
  function MapIf<T>(s: seq<T>, hit: T -> bool, f: T -> T): (r: seq<T>)
    ensures |r| == |s|
    ensures forall i :: 0 <= i < |s| && hit(s[i]) ==> r[i] == f(s[i])
    ensures forall i :: 0 <= i < |s| && !hit(s[i]) ==> r[i] == s[i]
  {
    seq(|s|, i requires 0 <= i < |s| => if hit(s[i]) then f(s[i]) else s[i])
  }
}

=== FILE: store.dfy ===
/** The records of the hosted store, as the hooks see them, and the abstract store itself.
    Timestamps are opaque ordered integers; money amounts are integers (cents). */
module Store {
  import opened Wrappers

  type Id = string

  /** The submission statuses the compliance workflow writes or reads. */
  const Approved: string := "approved"
  const Pending: string := "pending"
  const RevisionRequested: string := "revision_requested"

  /** A row of `content_submissions`. */
  datatype Submission = Submission(
    id: Id,
    campaignId: Id,
    influencerId: Id,
    platform: string,
    contentType: string,
    contentUrl: Option<string>,
    caption: Option<string>,
    fecDisclosure: Option<string>,
    status: string,
    complianceChecked: bool,
    reviewNotes: Option<string>,
    createdAt: int,
    updatedAt: int)

  /** A row of `conversations`: one PAC-side and one influencer-side user on one campaign. */
  datatype Conversation = Conversation(
    id: Id,
    campaignId: Id,
    pacUserId: Id,
    influencerUserId: Id,
    lastMessageAt: Option<int>,
    createdAt: int)

  /** A row of `messages`. */
  datatype Message = Message(
    id: Id,
    campaignId: Id,
    senderId: Id,
    recipientId: Id,
    subject: Option<string>,
    content: string,
    readAt: Option<int>,
    createdAt: int)

  /** A row of `payments`. */
  datatype Payment = Payment(
    id: Id,
    campaignId: Id,
    influencerId: Option<Id>,
    amount: int,
    paymentType: string,
    status: string,
    createdAt: int)

  /** A row of `campaigns`. */
  datatype Campaign = Campaign(
    id: Id,
    pacId: Id,
    name: string,
    description: Option<string>,
    budget: int,
    status: string,
    createdAt: int)

  /** A row of `campaign_analytics`; the counters are nullable. */
  datatype AnalyticsRow = AnalyticsRow(
    id: Id,
    campaignId: Id,
    platform: string,
    impressions: Option<int>,
    clicks: Option<int>,
    engagementCount: Option<int>,
    dateRecorded: int)

  /** The `display_name, avatar_url` projection of a row of `profiles`. */
  datatype Profile = Profile(displayName: Option<string>, avatarUrl: Option<string>)

  /** The whole store: one sequence per table, the PAC-to-admin ownership map, and the
      user profiles and influencer accounts that the joins read. */
  datatype Store = Store(
    submissions: seq<Submission>,
    conversations: seq<Conversation>,
    messages: seq<Message>,
    payments: seq<Payment>,
    campaigns: seq<Campaign>,
    analytics: seq<AnalyticsRow>,
    pacAdmin: map<Id, Id>,
    profiles: map<Id, Profile>,
    influencerUser: map<Id, Id>)

  /** The join `campaigns!inner(pacs!inner(admin_user_id))` filtered on `admin_user_id = user`:
      the campaign exists and its PAC is administered by `user`. */
  predicate AdministeredBy(st: Store, campaignId: Id, user: Id)
  {
    exists c :: c in st.campaigns && c.id == campaignId && c.pacId in st.pacAdmin && st.pacAdmin[c.pacId] == user
  }

  /** Position `k` holds the first campaign with the given id. */
  predicate FirstWithId(campaigns: seq<Campaign>, k: int, id: Id)
  {
    0 <= k < |campaigns| && campaigns[k].id == id && forall j :: 0 <= j < k ==> campaigns[j].id != id
  }

  /** The first campaign with the given id. */
  function CampaignById(campaigns: seq<Campaign>, id: Id): (r: Option<Campaign>)
    ensures r.Some? ==> r.value in campaigns && r.value.id == id
    ensures r.None? <==> forall i :: 0 <= i < |campaigns| ==> campaigns[i].id != id
    ensures r.Some? ==> exists k :: FirstWithId(campaigns, k, id) && campaigns[k] == r.value
  {
    if |campaigns| == 0 then None
    else if campaigns[0].id == id then Some(campaigns[0])
    else CampaignById(campaigns[1..], id)
  }

  /** The profile of a user, when one exists. */
  function ProfileOf(st: Store, user: Id): (r: Option<Profile>)
    ensures r.Some? <==> user in st.profiles
    ensures r.Some? ==> r.value == st.profiles[user]
  {
    if user in st.profiles then Some(st.profiles[user]) else None
  }

  /** `influencers(profiles(display_name))`: the display name of an influencer's account. */
  function InfluencerName(st: Store, influencerId: Id): Option<string>
  {
    if influencerId in st.influencerUser && st.influencerUser[influencerId] in st.profiles
    then st.profiles[st.influencerUser[influencerId]].displayName
    else None
  }

  /** JavaScript truthiness of a nullable string: present and non-empty. */
  predicate Truthy(s: Option<string>)
  {
    s.Some? && |s.value| > 0
  }
}

=== FILE: submissions.dfy ===
/** `useSubmissions`: the submissions list and the generic status update. */
module Submissions {
  import opened Wrappers
  import opened Seqs
  import opened Store

  /** `fetchSubmissions`: signed out gives the empty list, a store error keeps the old one,
      otherwise the visible rows newest first. */
  function FetchSubmissions(prev: seq<Submission>, st: Store, user: Option<Id>, ok: bool): (list: seq<Submission>)
    ensures user.None? ==> list == []
    ensures user.Some? && !ok ==> list == prev
    ensures user.Some? && ok ==> multiset(list) == multiset(st.submissions)
    ensures user.Some? && ok ==> forall i, j :: 0 <= i < j < |list| ==> list[i].createdAt >= list[j].createdAt
  {
    if user.None? then []
    else if !ok then prev
    else
      var key := (s: Submission) => s.createdAt;
      var list := SortDesc(st.submissions, key);
      assert forall i, j :: 0 <= i < j < |list| ==> key(list[i]) >= key(list[j]);
      list
  }

  /** `reviewNotes || null`: an absent or empty note is stored as null. */
  function NormalizeNotes(notes: Option<string>): (r: Option<string>)
    ensures r.None? <==> !Truthy(notes)
    ensures r.Some? ==> r == notes
  {
    if Truthy(notes) then notes else None
  }

  /** The columns the update writes: status, notes, and `compliance_checked = (status === 'approved')`. */
  function SetStatus(s: Submission, status: string, notes: Option<string>): (r: Submission)
    ensures r.complianceChecked <==> status == Approved
    ensures r.status == status && r.reviewNotes == NormalizeNotes(notes)
    ensures r.(status := s.status, reviewNotes := s.reviewNotes, complianceChecked := s.complianceChecked) == s
  {
    s.(status := status, reviewNotes := NormalizeNotes(notes), complianceChecked := status == Approved)
  }

  /** The number of rows carrying `id`. */
  function RowsWithId(subs: seq<Submission>, id: Id): nat
  {
    Count(subs, (s: Submission) => s.id == id)
  }

  /** `updateSubmissionStatus`. Signed out: an error, nothing changes. The update followed by
      `.single()` succeeds only when exactly one row has the id; then that row gets the new
      status, normalised notes and the coupled flag, and the local list replaces its entries
      with that id by the updated row. Any failure leaves store and list unchanged. */
  function UpdateSubmissionStatus(st: Store, list: seq<Submission>, user: Option<Id>, id: Id, status: string,
                                  notes: Option<string>, ok: bool): (r: (Store, seq<Submission>, Outcome))
    ensures user.None? ==> r == (st, list, Fail(NotAuthenticated))
    ensures user.Some? && !(ok && RowsWithId(st.submissions, id) == 1) ==> r == (st, list, Fail(StoreRejected))
    ensures r.2.Pass? <==> user.Some? && ok && RowsWithId(st.submissions, id) == 1
    ensures r.0.(submissions := st.submissions) == st && |r.0.submissions| == |st.submissions|
    ensures |r.1| == |list|
    ensures forall i :: 0 <= i < |st.submissions| && (r.2.Fail? || st.submissions[i].id != id) ==>
      r.0.submissions[i] == st.submissions[i]
    ensures forall i :: 0 <= i < |list| && (r.2.Fail? || list[i].id != id) ==> r.1[i] == list[i]
    ensures r.2.Pass? ==> forall i :: 0 <= i < |st.submissions| && st.submissions[i].id == id ==>
      r.0.submissions[i] == SetStatus(st.submissions[i], status, notes)
    ensures r.2.Pass? ==> forall i :: 0 <= i < |list| && list[i].id == id ==>
      r.1[i] in r.0.submissions && r.1[i].id == id && r.1[i].status == status
      && (r.1[i].complianceChecked <==> status == Approved) && r.1[i].reviewNotes == NormalizeNotes(notes)
  {
    if user.None? then (st, list, Fail(NotAuthenticated))
    else if !(ok && RowsWithId(st.submissions, id) == 1) then (st, list, Fail(StoreRejected))
    else
      var hit := (s: Submission) => s.id == id;
      var subs' := MapIf(st.submissions, hit, (s: Submission) => SetStatus(s, status, notes));
      var k := IndexWhere(st.submissions, hit);
      if k == -1 then
        CountNone(st.submissions, hit);
        assert false;
        (st, list, Fail(StoreRejected))
      else
        var data := subs'[k];
        (st.(submissions := subs'), MapIf(list, hit, (s: Submission) => data), Pass)
  }
}

=== FILE: text.dfy ===
/** String primitives the components rely on: JavaScript's `trim` whitespace set,
    ASCII case mapping, `includes`, `replace` and `Number#toString` for naturals. */
module Text {

  /** A JavaScript WhiteSpace or LineTerminator code unit (what `String#trim` strips). */
  predicate IsJsSpace(c: char)
  {
    var n := c as int;
    (9 <= n <= 13) || n == 0x20 || n == 0xA0 || n == 0x1680
    || (0x2000 <= n <= 0x200A) || n == 0x2028 || n == 0x2029
    || n == 0x202F || n == 0x205F || n == 0x3000 || n == 0xFEFF
  }

  /** Nothing but whitespace: `s.trim()` is falsy. */
  predicate IsBlank(s: string)
  {
    forall i :: 0 <= i < |s| ==> IsJsSpace(s[i])
  }

  function TrimStart(s: string): (r: string)
    ensures |r| <= |s|
    ensures r == s[|s| - |r|..]
    ensures |r| > 0 ==> !IsJsSpace(r[0])
    ensures IsBlank(s[..|s| - |r|])
  {
    if |s| > 0 && IsJsSpace(s[0]) then
      var r := TrimStart(s[1..]);
      assert s[1..][..|s[1..]| - |r|] == s[1..|s| - |r|];
      r
    else s
  }

  function TrimEnd(s: string): (r: string)
    ensures |r| <= |s|
    ensures r == s[..|r|]
    ensures |r| > 0 ==> !IsJsSpace(r[|r| - 1])
    ensures IsBlank(s[|r|..])
  {
    if |s| > 0 && IsJsSpace(s[|s| - 1]) then
      var r := TrimEnd(s[..|s| - 1]);
      assert s[..|s| - 1][|r|..] == s[|r|..|s| - 1];
      r
    else s
  }

  /** `String#trim`. */
  function Trim(s: string): string
  {
    TrimStart(TrimEnd(s))
  }

  /** `!s.trim()` holds exactly for blank strings. */
  lemma TrimEmptyIffBlank(s: string)
    ensures Trim(s) == "" <==> IsBlank(s)
  {
    var e := TrimEnd(s);
    if Trim(s) == "" {
      assert e[..|e|] == e;
      var t := s[|e|..];
      assert s == e + t;
      forall i | 0 <= i < |s| ensures IsJsSpace(s[i]) {
        assert s[i] == (e + t)[i];
      }
    } else {
      var r := Trim(s);
      assert !IsJsSpace(r[0]);
      assert r == e[|e| - |r|..];
      assert e == s[..|e|];
      assert s[|e| - |r|] == r[0];
    }
  }

  /** ASCII `toLowerCase` of one character. */
  function Lower(c: char): char
  {
    if 'A' <= c <= 'Z' then (c as int + 32) as char else c
  }

  /** ASCII `toUpperCase` of one character. */
  function Upper(c: char): char
  {
    if 'a' <= c <= 'z' then (c as int - 32) as char else c
  }

  predicate IsLowerLetter(c: char) { 'a' <= c <= 'z' }

  function ToLower(s: string): (r: string)
    ensures |r| == |s|
    ensures forall i :: 0 <= i < |s| ==> r[i] == Lower(s[i])
  {
    seq(|s|, i requires 0 <= i < |s| => Lower(s[i]))
  }

  function ToUpper(s: string): (r: string)
    ensures |r| == |s|
    ensures forall i :: 0 <= i < |s| ==> r[i] == Upper(s[i])
    ensures forall i :: 0 <= i < |r| ==> !IsLowerLetter(r[i])
  {
    seq(|s|, i requires 0 <= i < |s| => Upper(s[i]))
  }

  /** `t` occurs in `s` at some position. */
  ghost predicate OccursIn(t: string, s: string)
  {
    exists i :: OccursAt(t, s, i)
  }

  /** `t` occurs in `s` starting at index `i`. */
  predicate OccursAt(t: string, s: string, i: int)
  {
    0 <= i && i + |t| <= |s| && s[i..i + |t|] == t
  }

  /** `s.includes(t)`, scanning left to right. */
  function Includes(s: string, t: string): bool
    decreases |s|
  {
    if |t| > |s| then false
    else if s[..|t|] == t then true
    else Includes(s[1..], t)
  }

  lemma {:induction false} IncludesIffOccurs(s: string, t: string)
    ensures Includes(s, t) <==> OccursIn(t, s)
    decreases |s|
  {
    if |t| > |s| {
      assert forall i :: !OccursAt(t, s, i);
    } else if s[..|t|] == t {
      assert OccursAt(t, s, 0);
    } else {
      IncludesIffOccurs(s[1..], t);
      if OccursIn(t, s) {
        var i :| OccursAt(t, s, i);
        assert i != 0;
        assert s[1..][i - 1..i - 1 + |t|] == t;
        assert OccursAt(t, s[1..], i - 1);
      }
      if OccursIn(t, s[1..]) {
        var i :| OccursAt(t, s[1..], i);
        assert s[i + 1..i + 1 + |t|] == t;
        assert OccursAt(t, s, i + 1);
      }
    }
  }

  /** Every string includes the empty string. */
  lemma IncludesEmpty(s: string)
    ensures Includes(s, "")
  {
  }

  /** `s.replace(a, b)` with a one-character string pattern: only the first occurrence. */
  function ReplaceFirst(s: string, a: char, b: char): (r: string)
    ensures |r| == |s|
    ensures forall i :: 0 <= i < |s| ==>
      r[i] == (if s[i] == a && (forall k :: 0 <= k < i ==> s[k] != a) then b else s[i])
  {
    if |s| == 0 then ""
    else if s[0] == a then [b] + s[1..]
    else [s[0]] + ReplaceFirst(s[1..], a, b)
  }

  /** The first occurrence is the one after a prefix free of the character. */
  lemma {:induction false} ReplaceFirstAt(pre: string, post: string, a: char, b: char)
    requires forall i :: 0 <= i < |pre| ==> pre[i] != a
    ensures ReplaceFirst(pre + [a] + post, a, b) == pre + [b] + post
  {
    if |pre| > 0 {
      assert (pre + [a] + post)[1..] == pre[1..] + [a] + post;
      ReplaceFirstAt(pre[1..], post, a, b);
      assert pre + [b] + post == [pre[0]] + (pre[1..] + [b] + post);
    }
  }

  /** `s.replace(/a/g, b)` for one character. */
  function ReplaceAll(s: string, a: char, b: char): (r: string)
    ensures |r| == |s|
    ensures forall i :: 0 <= i < |s| ==> r[i] == (if s[i] == a then b else s[i])
  {
    seq(|s|, i requires 0 <= i < |s| => if s[i] == a then b else s[i])
  }

  predicate IsDigit(c: char) { '0' <= c <= '9' }

  function DigitChar(d: nat): (c: char)
    requires d < 10
    ensures IsDigit(c)
  {
    ('0' as int + d) as char
  }

  /** `String(n)` for a natural number: decimal digits, no sign, no leading zero. */
  function NatToString(n: nat): (r: string)
    ensures |r| >= 1
    ensures forall i :: 0 <= i < |r| ==> IsDigit(r[i])
    ensures |r| > 1 ==> r[0] != '0'
  {
    if n < 10 then [DigitChar(n)]
    else NatToString(n / 10) + [DigitChar(n % 10)]
  }

  /** The value of a string of decimal digits. */
  function DecimalValue(s: string): nat
    requires forall i :: 0 <= i < |s| ==> IsDigit(s[i])
  {
    if |s| == 0 then 0
    else
      assert IsDigit(s[|s| - 1]);
      DecimalValue(s[..|s| - 1]) * 10 + (s[|s| - 1] as int - '0' as int)
  }

  /** Reading back the printed number gives the number. */
  lemma {:induction false} NatToStringRoundTrip(n: nat)
    ensures DecimalValue(NatToString(n)) == n
  {
    if n >= 10 {
      var r := NatToString(n);
      assert r[..|r| - 1] == NatToString(n / 10);
      NatToStringRoundTrip(n / 10);
    }
  }
}

=== FILE: wrappers.dfy ===
/** Failure-carrying wrappers shared by every hook model. */
module Wrappers {

  /** A nullable or optional value (`T | null`, `T | undefined`). */
  datatype Option<+T> = None | Some(value: T) {

    /** The wrapped value, or `default` when absent (`x ?? default`). */
    function GetOr(default: T): T {
      match this
      case Some(v) => v
      case None => default
    }
  }

  /** `s || undefined` for a string: the empty string is passed on as absent. */
  function NonEmpty(s: string): (r: Option<string>)
    ensures r.None? <==> s == ""
    ensures r.Some? ==> r.value == s
  {
    if s == "" then None else Some(s)
  }

  /** The error taxonomy of the hooks: no signed-in user, or the store refused the request. */
  datatype Failure = NotAuthenticated | StoreRejected

  /** The `{ error }` half of a hook's reply. */
  datatype Outcome = Pass | Fail(error: Failure)

  /** The `{ data, error }` reply of a hook. */
  datatype Result<+R> = Success(value: R) | Err(error: Failure)
}
